=== FILE: README.md ===
# small_rabbit, modelled in Dafny

small_rabbit is a Laravel package that wraps a RabbitMQ connection. This
project models its core in Dafny:

- **Send path of `RabbitHandler`.** `validateSendArguments` is checked in
  source order, with PHP `empty()` semantics (`"0"` counts as empty). `send`
  then picks a destination in one of three ways. The model also covers the
  three declared caches (`ensureQueue`, `ensureExchange`, `ensureBinding`),
  the routing-pattern test behind `checkExchangeBindings`, and `toJsonSend`.
- **Connection counters.** `connect` runs a bounded backoff: at most 5 failed
  attempts and at most 15 seconds of sleep. `close` and `reconnect` are
  modelled too, as are the constructor, and `setConsumers`, which is
  all-or-nothing.
- **Retry envelope of `AbstractConsumer`.** This covers the `__invoke` retry
  loop with its log lines and its single dead-letter row, the escalation
  test in `handleShutdown`, the setters, and the gating in `log` and `logToDB`.

Everything the handler does to the outside world is an event in a trace
(`Broker.Event`, `ConsumerEnvelope.Effect`). That includes channel calls,
dials, sleeps, log lines and database rows. Everything it reads from the
outside is an input:

- dial results, as `nat -> DialResult`;
- what `handle` returned or threw, as `nat -> Outcome<V>`;
- the configuration switches;
- `class_exists` / `is_subclass_of`.

Modules:

| file | module | models |
|---|---|---|
| php.dfy | `Php` | `empty()`, integer interpolation, `explode`/`implode`, `strpos` |
| option.dfy | `Optional` | `Option` |
| broker.dfy | `Broker` | the event trace and the `log` gate of the handler |
| routing.dfy | `Routing` | `routingKeyMatches` as a recursive matcher |
| topology.dfy | `Topology` | the declared caches, `ensure*`, `checkExchangeBindings` |
| connection.dfy | `Connection` | `connect` (as a method with a loop), `close` |
| publisher.dfy | `Publisher` | `validateSendArguments`, `send`, `toJsonSend` |
| rabbit.dfy | `Rabbit` | constructor, `reconnect`, the transport-error branch of `send`, `setConsumers` |
| envelope.dfy | `ConsumerEnvelope` | `__invoke`, `handleShutdown`, setters, `log`, `logToDB` |

Behaviour of the code worth knowing:

- The declared caches are never cleared: `reconnect` only calls `close` and
  `connect` (src/Services/RabbitHandler.php:382-386), so `Rabbit.Reconnect`
  keeps them.
- `#` becomes PCRE `.*`, so `orders.#` does not match `orders`, unlike the
  topic rules in section 3.1.3.3 of the AMQP 0-9-1 specification.
- The fifth validation check repeats the fourth. Its error can never be
  raised; `Publisher.Validate` states this.
- An exchange named `"0"` is empty to PHP. A send with a queue and exchange
  `"0"` therefore takes the queue-only branch, and publishes through exchange
  `"0"` with the queue name as routing key.
- Validation errors are raised before the `try`, so they are never logged.
  The unroutable error is raised inside it, so it is logged (when logging is
  on) before being re-raised.

Binding keys are kept as the string `exchange|queue|routingKey` and split
back with `explode`, as the code does. `Topology.CheckExchangeBindingsExact`
shows the lookup is exact when no name contains `|`.
`Topology.PipeInExchangeNameShiftsFields` shows how the lookup goes wrong
when one does.

## Model

| member | source | states |
|---|---|---|
| `Php.NatToStringRoundTrip` | src/Services/RabbitHandler.php:375 | the decimal text interpolated into a message reads back as the same number |
| `Php.ExplodeImplode` | src/Services/RabbitHandler.php:173 | splitting glued pieces that hold no separator gives the pieces back |
| `Php.ContainsInside` | src/Utils/AbstractConsumer.php:89 | `strpos` finds a phrase wherever it sits inside a message |
| `Broker.LogIf` | src/Services/RabbitHandler.php:410-416 | the handler writes its error line exactly when logging is enabled, and nothing otherwise |
| `Routing.RoutingKeyMatches` | src/Services/RabbitHandler.php:190-197 | the anchored pattern test, with `.` literal, `*` one or more non-dot characters and `#` any run of characters other than a newline; characterised by `Routing.LiteralMatchesOnlyItself`, `Routing.StarBetweenLiterals` and `Routing.LiteralThenHash` |
| `Routing.LiteralMatchesOnlyItself` | src/Services/RabbitHandler.php:190-197 | a pattern without `*`/`#` matches exactly itself, and itself plus the final newline that `$` admits |
| `Routing.DotsPreserved` | src/Services/RabbitHandler.php:192-193 | without `#`, a matched key has exactly as many `.` separators as the pattern: `*` never crosses a dot |
| `Routing.MinimumLength` | src/Services/RabbitHandler.php:192-196 | every pattern character other than `#` consumes at least one key character |
| `Routing.SingleStar` | src/Services/RabbitHandler.php:193 | `*` alone matches exactly the non-empty keys without a dot |
| `Routing.StarBetweenLiterals` | src/Services/RabbitHandler.php:192-196 | `a*b` matches a key iff it is `a`, a non-empty dot-free segment, `b`, and optionally the final newline `$` admits |
| `Routing.StarSegmentShape` | src/Services/RabbitHandler.php:192-196 | every key `a*b` accepts splits into `a`, a non-empty dot-free segment, `b` and an optional final newline |
| `Routing.LiteralThenHash` | src/Services/RabbitHandler.php:194-196 | `a#` matches a key iff it is `a` followed by a newline-free tail (empty and dotted tails included), and optionally the final newline |
| `Routing.HashTailShape` | src/Services/RabbitHandler.php:194-196 | every key `a#` accepts splits into `a`, a newline-free tail and an optional final newline |
| `Routing.DotCountMismatch` | src/Services/RabbitHandler.php:192-196 | a `#`-free pattern never matches a key with a different number of dots |
| `Routing.TooShort` | src/Services/RabbitHandler.php:192-196 | a key shorter than the pattern's non-`#` part is never matched |
| `Routing.StarOneSegmentExample` | src/Services/RabbitHandler.php:190-197 | `orders.*.created` matches `orders.eu.created` |
| `Routing.StarNeverSpansTwoSegments` | src/Services/RabbitHandler.php:190-197 | `a.*.b` never matches `a.x.y.b`, so `orders.*.created` rejects `orders.eu.west.created` |
| `Routing.StarNotEmptyExample` | src/Services/RabbitHandler.php:193 | `orders.*` does not match `orders` |
| `Routing.HashTailExamples` | src/Services/RabbitHandler.php:194 | `orders.#` matches `orders.eu.west`, `orders.created` and `orders.` |
| `Routing.HashNeedsDotExample` | src/Services/RabbitHandler.php:192-194 | `orders.#` does not match `orders` |
| `Topology.ReplayDeclaresOnce` | src/Services/RabbitHandler.php:61-106 | a trace that replays against the caches declares no queue, exchange or binding key twice, and none cached before it |
| `Topology.EnsureQueue` | src/Services/RabbitHandler.php:61-68 | a queue not yet cached gets exactly one declare and is added to the queue cache; a cached one gets no call and the caches stay as they were; the other caches are untouched |
| `Topology.EnsureExchange` | src/Services/RabbitHandler.php:77-84 | an exchange name not yet cached gets exactly one declare, with the type asked for, and is added to the exchange cache; a cached name gets no call and the caches stay as they were; the other caches are untouched |
| `Topology.EnsureBinding` | src/Services/RabbitHandler.php:95-106 | both ends and the binding key (exchange, queue, routing key joined by pipes) are cached afterwards, and the calls made account for every new cache entry |
| `Topology.EnsureBindingCalls` | src/Services/RabbitHandler.php:95-106 | the calls are exactly the missing ones, in order: queue declare, exchange declare, bind |
| `Topology.EnsureQueueIdempotent` | src/Services/RabbitHandler.php:61-68 | a repeated `ensureQueue` calls nothing and changes nothing |
| `Topology.EnsureExchangeIdempotent` | src/Services/RabbitHandler.php:77-84 | a repeated `ensureExchange` calls nothing, even with another exchange type |
| `Topology.EnsureBindingIdempotent` | src/Services/RabbitHandler.php:95-106 | a repeated identical `ensureBinding` calls nothing |
| `Topology.BindingKeySplits` | src/Services/RabbitHandler.php:100 | a key built from names without a pipe character splits back into exchange, queue and pattern |
| `Topology.CheckExchangeBindings` | src/Services/RabbitHandler.php:169-181 | some recorded binding key, split on the pipe character, names the exchange and has a pattern matching the key; characterised by `Topology.CheckExchangeBindingsExact` |
| `Topology.CheckExchangeBindingsExact` | src/Services/RabbitHandler.php:169-181 | when no name holds a pipe character the lookup is true iff some recorded binding on that exchange has a pattern matching the key |
| `Topology.PipeInExchangeNameShiftsFields` | src/Services/RabbitHandler.php:169-181 | a pipe character in an exchange name shifts the split fields, so a binding on exchange a-pipe-b makes exchange a look routable |
| `Connection.BackoffDelay` | src/Services/RabbitHandler.php:368-369 | the sleep is `min(2·2^(n-1), 15 - totalDelay)`: at least 1 second and never past the 15-second budget |
| `Connection.SchedulePositive` | src/Services/RabbitHandler.php:369-371 | every sleep of a `connect` call lasts at least one second |
| `Connection.ScheduleFromZero` | src/Services/RabbitHandler.php:351-372 | from zeroed counters the sleeps can only be a prefix of 2, 4, 8, 1 |
| `Connection.ExhaustionFromZero` | src/Services/RabbitHandler.php:351-375 | from zeroed counters the budget runs out after sleeps of exactly 2, 4, 8, 1, which total 15 |
| `Connection.DialLoop` | src/Services/RabbitHandler.php:351-373 | the loop stops on the first dial that does not fail with an I/O error, or when the budget is spent; every earlier dial failed; counters stay within 5 and 15 |
| `Connection.Connect` | src/Services/RabbitHandler.php:348-376 | trace of dials and sleeps; success zeroes the counters; failure only raises them; exhaustion gives the "after N seconds" message; a spent budget dials nothing |
| `Connection.ConnectFromZeroAllFailing` | src/Services/RabbitHandler.php:348-375 | from fresh counters with every dial failing: 4 dials, sleeps 2, 4, 8, 1, then "after 15 seconds" |
| `Connection.Close` | src/Services/RabbitHandler.php:391-401 | channel then connection are closed once they exist; counters are not touched |
| `Publisher.Validate` | src/Services/RabbitHandler.php:210-241 | passes iff the request has one accepted shape; otherwise the first failing check, in source order, gives the error; the fifth check never fires |
| `Publisher.Send` | src/Services/RabbitHandler.php:119-160 | a rejected request makes no call at all; otherwise the caches account for the trace, and there is exactly one publish on success and none on failure. With queue and exchange, the binding is recorded and the message is published to the exchange with the caller's routing key. With the exchange alone, it is published (to the exchange, with the key) iff a recorded binding routes the key, and otherwise fails as unroutable. With the queue alone, it is published with the queue name as routing key. Neither of the last two records a binding |
| `Publisher.SendBound` | src/Services/RabbitHandler.php:124-147 | queue plus exchange: both ends and the binding are cached, then one persistent publish to (exchange, routing key) |
| `Publisher.SendToExchange` | src/Services/RabbitHandler.php:128-147 | exchange only: the exchange is declared; it publishes iff a recorded binding on it matches the key; otherwise unroutable, with a log line iff logging is on |
| `Publisher.Reject` | src/Services/RabbitHandler.php:153-157 | a failure inside the `try` publishes nothing, declares nothing more, and leaves its error message in the log exactly when logging is on |
| `Publisher.SendToQueue` | src/Services/RabbitHandler.php:136-147 | queue only: the queue is cached and the publish uses the queue name as routing key |
| `Publisher.FinalElseUnreachable` | src/Services/RabbitHandler.php:141-144 | after validation a queue or an exchange is always present |
| `Publisher.ZeroExchangeIsQueueOnly` | src/Services/RabbitHandler.php:124-147 | with exchange `"0"` the queue-only branch runs and publishes through exchange `"0"` |
| `Publisher.QueueOnlyScenario` | src/Services/RabbitHandler.php:136-147 | `send("hi", "q1")` on a new handler declares `q1` once and publishes to `""` with key `q1` |
| `Publisher.UnroutableScenario` | src/Services/RabbitHandler.php:128-135 | an exchange-only send with no recorded binding declares the exchange, fails as unroutable and publishes nothing |
| `Publisher.SendAll` | src/Services/RabbitHandler.php:119-160 | over any sequence of sends the trace replays from the first caches; there are as many publishes as successful sends |
| `Publisher.SendAllDeclaresOnce` | src/Services/RabbitHandler.php:61-106 | over any sequence of sends, nothing is declared or bound twice |
| `Publisher.ToJsonSend` | src/Services/RabbitHandler.php:290-294 | as written it always fails, whatever the destination: with "Both exchange and queue cannot be empty", or with "Message cannot be empty" when the payload renders as `0` |
| `Publisher.ToJsonSendToQueueFails` | src/Services/RabbitHandler.php:290-294 | the same JSON sent with `send` to a queue is published, while `toJsonSend` to that queue fails |
| `Publisher.ToJsonSendFixed` | src/Services/RabbitHandler.php:290-294 | forwarding the arguments, the JSON send fails as empty iff the payload renders as empty text or `0`, and for lack of a destination iff otherwise neither queue nor exchange is given |
| `Publisher.ToJsonSendFixedReachesQueue` | src/Services/RabbitHandler.php:290-294 | the corrected JSON send to a queue publishes the JSON to that queue |
| `Rabbit.Open` | src/Services/RabbitHandler.php:31-34 | a handler exists iff the first `connect` succeeded, with empty caches and zeroed counters |
| `Rabbit.Reconnect` | src/Services/RabbitHandler.php:382-386 | close, then connect; the caches and registry are unchanged and nothing is redeclared; with a spent budget it dials nothing |
| `Rabbit.ReconnectAfterExhaustion` | src/Services/RabbitHandler.php:351-386 | after an exhausted `connect`, a `reconnect` dials zero times and fails the same way, whatever the broker would answer |
| `Rabbit.ResendRequest` | src/Services/RabbitHandler.php:139-152 | the request the transport-error `catch` resends: the queue-only branch has already replaced the routing key by the queue name; characterised by `Rabbit.QueueOnlyResendRejected` and `Rabbit.OtherResendsUnchanged` |
| `Rabbit.QueueOnlyResendRejected` | src/Services/RabbitHandler.php:136-152 | an accepted queue-only request is resent with the queue name as routing key and no exchange, which validation rejects |
| `Rabbit.OtherResendsUnchanged` | src/Services/RabbitHandler.php:124-152 | a request with an exchange is resent exactly as the caller gave it |
| `Rabbit.LogAfterResend` | src/Services/RabbitHandler.php:151-153 | the trace gains exactly the reconnection log line when the resend published and logging is on, and nothing otherwise |
| `Rabbit.Recover` | src/Services/RabbitHandler.php:149-153 | reconnect, then resend: nothing is resent when `connect` fails; otherwise the resend ends as `send` would on the kept caches, the trace redeclares nothing, and it publishes at most once |
| `Rabbit.SendAfterTransportError` | src/Services/RabbitHandler.php:119-153 | as written: after a reconnect a queue-only send fails validation and publishes nothing; a send with an exchange is resent as asked |
| `Rabbit.SendAfterTransportErrorFixed` | src/Services/RabbitHandler.php:119-153 | resending the caller's routing key: a reconnected queue-only send is published |
| `Rabbit.SetConsumers` | src/Services/RabbitHandler.php:304-320 | registry replaced iff every class exists and is a consumer; otherwise unchanged, and the first bad class names the error |
| `ConsumerEnvelope.NewConsumer` | src/Utils/AbstractConsumer.php:16-17 | defaults: 3 tries, 30 seconds |
| `ConsumerEnvelope.SetTries` | src/Utils/AbstractConsumer.php:115-118 | any integer becomes `tries`, unchecked; nothing else changes |
| `ConsumerEnvelope.SetMaxTime` | src/Utils/AbstractConsumer.php:105-108 | any integer becomes `maxTime`, unchecked; nothing else changes |
| `ConsumerEnvelope.LogLine` | src/Utils/AbstractConsumer.php:127-133 | one log line iff logging is enabled |
| `ConsumerEnvelope.LogToDB` | src/Utils/AbstractConsumer.php:143-161 | one row iff saving is enabled; a missing or empty class becomes the consumer's own class |
| `ConsumerEnvelope.FailuresHandles` | src/Utils/AbstractConsumer.php:45-68 | n failed attempts call `handle` exactly n times |
| `ConsumerEnvelope.FailuresInserts` | src/Utils/AbstractConsumer.php:59-68 | within the budget the only row is written after the last allowed attempt, with the body and the last error |
| `ConsumerEnvelope.AttemptStart` | src/Utils/AbstractConsumer.php:45-50 | what precedes each call: arming the alarm for `maxTime` seconds when `pcntl` is loaded, then the call; characterised by `ConsumerEnvelope.FailuresDiscipline` and `ConsumerEnvelope.Invoke` |
| `ConsumerEnvelope.FailuresDiscipline` | src/Utils/AbstractConsumer.php:44-68 | inside the loop each call comes right after arming the alarm for `maxTime` when `pcntl` is loaded, nothing is armed otherwise, and the alarm is never cleared |
| `ConsumerEnvelope.FailureEffects` | src/Utils/AbstractConsumer.php:59-67 | the `catch` after a failed call: the attempt line (or the "Max attempts" line and the row at the last attempt), then the error line; characterised by `ConsumerEnvelope.FailureLogsAttempt` and `ConsumerEnvelope.FailureEffectsInserts` |
| `ConsumerEnvelope.FailureEffectsInserts` | src/Utils/AbstractConsumer.php:59-67 | a single failure writes a row only at or past the last allowed attempt |
| `ConsumerEnvelope.FailuresQuiet` | src/Utils/AbstractConsumer.php:127-133 | with logging disabled the failures log nothing |
| `ConsumerEnvelope.MaxLineOnlyAtLast` | src/Utils/AbstractConsumer.php:61-66 | the "Max attempts reached" line appears iff the last allowed attempt failed and logging is on |
| `ConsumerEnvelope.FailureLogsAttempt` | src/Utils/AbstractConsumer.php:61-67 | each failure logs its attempt number (or "Max attempts" at the last), then the "Consumer C error" line with the message |
| `ConsumerEnvelope.ReturnedEffects` | src/Utils/AbstractConsumer.php:45-51 | a success after k failures means k+1 calls of `handle` and no row |
| `ConsumerEnvelope.ExhaustedEffects` | src/Utils/AbstractConsumer.php:45-73 | when every allowed attempt fails, `handle` runs `tries` times and exactly one row (if saving) carries the last error |
| `ConsumerEnvelope.RetryLoop` | src/Utils/AbstractConsumer.php:45-69 | the loop stops at the first returning call within the budget, or once `tries` calls have all thrown |
| `ConsumerEnvelope.Invoke` | src/Utils/AbstractConsumer.php:27-74 | returns the first success's value at once, with the alarm still armed (no clearing at all); otherwise `tries` calls, one row, and the alarm cleared last iff `pcntl` is loaded; every call of `handle` comes right after arming the alarm for `maxTime` iff `pcntl` is loaded; `handle` call count and rows are exact |
| `ConsumerEnvelope.InvokeWithoutTries` | src/Utils/AbstractConsumer.php:45-73 | with `tries` ≤ 0, `handle` is never called and nothing is logged or written |
| `ConsumerEnvelope.InvokeAsWritten` | src/Utils/AbstractConsumer.php:33-51 | as written: with `pcntl` loaded, registering the alarm handler raises before the loop, so nothing is called, logged or written; without it, `Invoke` |
| `ConsumerEnvelope.TimeoutHandlerNeverRegisters` | src/Utils/AbstractConsumer.php:33-51 | with `pcntl` loaded and at least one try, the code as written calls `handle` zero times where `Invoke` calls it at least once |
| `ConsumerEnvelope.HandleShutdown` | src/Utils/AbstractConsumer.php:86-98 | escalates iff the last error is `E_ERROR` mentioning "Maximum execution time"; the record is `{error, payload, class}`; the log line is gated |
| `ConsumerEnvelope.FatalTimeoutEscalates` | src/Utils/AbstractConsumer.php:89-96 | a fatal error with the phrase anywhere in its message is escalated |
| `ConsumerEnvelope.OtherKindsNotEscalated` | src/Utils/AbstractConsumer.php:89 | no other error type is escalated, whatever its message |
| `ConsumerEnvelope.EveryCallTimesOut` | src/Utils/AbstractConsumer.php:36-63 | a timeout counts as an ordinary failure: if every call times out, the row carries "Message processing timed out." |

## Left out

- `consume` (src/Services/RabbitHandler.php:251-277): it is a blocking wait loop on the network with nothing to state about its result.
- Publisher.Send: the transport-error branch (reconnect, resend, log) is modelled separately, as `Rabbit.SendAfterTransportError`, for one reconnect and one resend. A second transport error during the resend, which would recurse again, is not modelled. Which channel calls of the failed attempt went through before the error is not known: the handler passed in stands for the state at the `catch`.
- Errors the broker raises on declare, bind or publish are not modelled: the broker is outside the model.
- Routing.RoutingKeyMatches: a pattern holding other regular-expression syntax, `/`, or a newline is taken to match nothing. PHP would compile it as a regular expression (or fail to), and regex matching in general is outside the model.
- Connection.Connect: `new AMQPStreamConnection` followed by `channel()` is one dial. An I/O failure in `channel()` after the connection opened is not told apart.
- Connection.Connect: `sleep` is a trace event, not elapsed time.
- The singleton and destructor (src/Services/RabbitHandler.php:39-53) and the Laravel facades are not modelled; configuration values are parameters.
- ConsumerEnvelope.Invoke: it assumes the alarm handler registers, as it would if `pcntl_signal` were given the namespaced name of `timeoutHandler`; as written it does not (see "## Findings" and `ConsumerEnvelope.InvokeAsWritten`). Signals and `declare(ticks)` are runtime behaviour: an alarm is kept only as one throw of "Message processing timed out." The `TypeError` of the failed registration is a flag, not a message.
- `register_shutdown_function` (src/Utils/AbstractConsumer.php:31) registers the hook again on every delivery, and a second delivery redeclares `timeoutHandler`; neither is modelled.
- The escalation channel after `handleShutdown` is not modelled: JSON, base64, the subprocess and src/Commands/SaveTimeoutExceedErrorCommand.php. That command `json_decode`s the option without base64-decoding it first, so its insert cannot happen.
- src/Commands/MessageConsumerCommand.php: it is CLI wiring. Its defaults (tries 0, which leaves 3 in place; max-time 60) only feed `SetTries` / `SetMaxTime`.
- Connection.Close: a link that never connected closes nothing. In PHP, reading the uninitialised typed properties `$channel` and `$connection` would throw instead. No handler built by `Rabbit.Open` has such a link: the constructor throws when the first `connect` fails.
- The timestamps of a `not_processed_messages` row are not modelled.
- SmallRabbitException.php is not part of this model. It is taken to extend `\Exception`, which is why the unroutable error is logged by the generic `catch`.
- src/Utils/ChannelType.php is never used; exchange types are checked as strings.

## Findings

| source | as written | input that shows it | evidently intended | confidence | as-written member | corrected member |
|---|---|---|---|---|---|---|
| src/Services/RabbitHandler.php:293 | `send($json, $queueName = '', $exchangeName = '', $routingKey = '', …)` assigns `''` to the three destination arguments instead of passing them, so every call fails validation with "Both exchange and queue cannot be empty." | `toJsonSend(['a' => 1], 'orders')` | pass the caller's queue, exchange and routing key through to `send` | not executed | `Publisher.ToJsonSend`, `Publisher.ToJsonSendToQueueFails` | `Publisher.ToJsonSendFixed`, `Publisher.ToJsonSendFixedReachesQueue` |
| src/Services/RabbitHandler.php:139-152 | the queue-only branch overwrites `$routingKey` with the queue name, and the transport-error `catch` resends with the overwritten variable, so the resend fails validation with "Exchange name must be provided if routing key is specified." (lines 222-224) and the message is never published | `send('hi', 'q1')` whose `basic_publish` throws `AMQPConnectionClosedException`, followed by a successful reconnect | resend with the caller's routing key, so the queue-only message is published after reconnecting | not executed | `Rabbit.SendAfterTransportError`, `Rabbit.QueueOnlyResendRejected` | `Rabbit.SendAfterTransportErrorFixed` |
| src/Utils/AbstractConsumer.php:35-43 | `timeoutHandler` is declared inside namespace `SmallRabbit\Utils`, so its name is `SmallRabbit\Utils\timeoutHandler`, but `pcntl_signal(SIGALRM, "timeoutHandler")` names the global function, which does not exist; PHP 8 raises a `TypeError` there, before the loop, so with `pcntl` loaded `handle` is never called | any delivery to a consumer with `tries` ≥ 1 on a PHP build with the `pcntl` extension loaded | register the handler by its namespaced name (`__NAMESPACE__ . '\\timeoutHandler'`), so each call runs under the alarm | not executed | `ConsumerEnvelope.InvokeAsWritten`, `ConsumerEnvelope.TimeoutHandlerNeverRegisters` | `ConsumerEnvelope.Invoke` |

=== FILE: broker.dfy ===
/** What the handler does to the outside world, recorded as an event trace:
    the AMQP channel calls it issues, the dials and sleeps of the connect
    loop, and the error-log lines. */
module Broker {

  /** `delivery_mode` 2: the broker keeps the message across a restart. */
  const Persistent: nat := 2

  datatype Event =
    | Dial
    | Sleep(seconds: nat)
    | CloseChannel
    | CloseConnection
      /** `queue_declare(name, passive=false, durable=true, exclusive=false, auto_delete=false)` */
    | QueueDeclare(queue: string)
      /** `exchange_declare(name, type, passive=false, durable=true, auto_delete=false)` */
    | ExchangeDeclare(exchange: string, kind: string)
    | QueueBind(queue: string, exchange: string, routingKey: string)
    | Publish(body: string, exchange: string, routingKey: string, deliveryMode: nat)
    | Log(message: string)

  /** The publishes in a trace, in order. */
  function Publishes(t: seq<Event>): (p: seq<Event>)
    ensures forall i :: 0 <= i < |p| ==> p[i].Publish?
    ensures |p| <= |t|
  {
    if t == [] then []
    else (if t[0].Publish? then [t[0]] else []) + Publishes(t[1..])
  }

  lemma {:induction false} PublishesAppend(a: seq<Event>, b: seq<Event>)
    ensures Publishes(a + b) == Publishes(a) + Publishes(b)
    decreases |a|
  {
    if a == [] {
      assert a + b == b;
    } else {
      assert (a + b)[0] == a[0];
      assert (a + b)[1..] == a[1..] + b;
      PublishesAppend(a[1..], b);
    }
  }

  /** A trace holds no publish exactly when it has no publish event. */
  lemma {:induction false} NoPublishes(t: seq<Event>)
    ensures Publishes(t) == [] <==> forall i :: 0 <= i < |t| ==> !t[i].Publish?
    decreases |t|
  {
    if t != [] {
      NoPublishes(t[1..]);
      assert forall i :: 1 <= i < |t| ==> t[i] == t[1..][i - 1];
    }
  }

  /** The error-log call of the handler: nothing when logging is off. */
  function LogIf(enabled: bool, message: string): (t: seq<Event>)
    ensures enabled <==> t == [Log(message)]
    ensures !enabled <==> t == []
  {
    if enabled then [Log(message)] else []
  }
}

=== FILE: connection.dfy ===
/** `connect`, `close` and the two counters behind the bounded backoff.

    The handler keeps `connectionAttempts` and `totalDelay` across calls.
    `connect` dials while fewer than 5 attempts have failed and less than
    15 seconds have been slept; after an I/O failure it sleeps
    `min(2 * 2^(attempts - 1), 15 - totalDelay)` seconds. Only a successful
    dial sets the counters back to zero, so once the budget is spent every
    later `connect` fails without dialling. Dial results are an input:
    `dials(j)` is the outcome of the (j+1)-th dial of the call. */
module Connection {
  import opened Php
  import opened Broker

  const MaxConnectionAttempts: nat := 5
  const MaxTotalDelay: nat := 15
  const InitialDelay: nat := 2

  /** What `new AMQPStreamConnection(...)` followed by `->channel()` did:
      succeeded, threw `AMQPIOException`, or threw anything else. */
  datatype DialResult = Connected | IoFailure | OtherFailure(message: string)

  /** How `connect` ended: returned, threw its own "unable to connect"
      exception, or let a non-I/O exception through. */
  datatype ConnectOutcome = Up | Exhausted(message: string) | Raised(message: string)

  /** The connection-side fields of the handler: the two counters, and
      whether connection and channel objects have been assigned. */
  datatype Link = Link(attempts: nat, totalDelay: nat, handles: bool)

  /** Before the first `connect`. */
  const Initial := Link(0, 0, false)

  predicate Valid(l: Link) {
    l.attempts <= MaxConnectionAttempts && l.totalDelay <= MaxTotalDelay
  }

  /** The loop condition of `connect` is false. */
  predicate BudgetSpent(l: Link) {
    l.attempts >= MaxConnectionAttempts || l.totalDelay >= MaxTotalDelay
  }

  function ExhaustedMessage(totalDelay: nat): string {
    "Unable to connect to RabbitMQ after " + NatToString(totalDelay) + " seconds of trying."
  }

  function Pow2(n: nat): (p: nat)
    ensures p >= 1
  {
    if n == 0 then 1 else 2 * Pow2(n - 1)
  }

  /** The sleep after the failed dial that brings the count to `attempts`. */
  function BackoffDelay(attempts: nat, totalDelay: nat): (d: nat)
    requires attempts >= 1 && totalDelay < MaxTotalDelay
    ensures 1 <= d <= MaxTotalDelay - totalDelay
    ensures d <= InitialDelay * Pow2(attempts - 1)
    ensures d == InitialDelay * Pow2(attempts - 1) || d == MaxTotalDelay - totalDelay
  {
    var grown := InitialDelay * Pow2(attempts - 1);
    if grown <= MaxTotalDelay - totalDelay then grown else MaxTotalDelay - totalDelay
  }

  function Sum(s: seq<nat>): nat {
    if s == [] then 0 else Sum(s[..|s| - 1]) + s[|s| - 1]
  }

  /** `s` is the list of sleeps one `connect` call makes when it starts
      from counters `attempts` and `totalDelay`: each sleep is taken with
      the loop condition true and has the backoff length for the counters
      at that moment. */
  predicate IsSchedule(attempts: nat, totalDelay: nat, s: seq<nat>)
    decreases |s|
  {
    s == [] ||
    var before := s[..|s| - 1];
    && IsSchedule(attempts, totalDelay, before)
    && attempts + |before| < MaxConnectionAttempts
    && totalDelay + Sum(before) < MaxTotalDelay
    && s[|s| - 1] == BackoffDelay(attempts + |before| + 1, totalDelay + Sum(before))
  }

  /** A dial followed by its sleep, for each failed dial. */
  function Backoff(s: seq<nat>): seq<Event> {
    if s == [] then [] else Backoff(s[..|s| - 1]) + [Dial, Sleep(s[|s| - 1])]
  }

  /** The sleeps of a trace, in order. */
  function SleepsOf(t: seq<Event>): seq<nat> {
    if t == [] then []
    else SleepsOf(t[..|t| - 1]) + (if t[|t| - 1].Sleep? then [t[|t| - 1].seconds] else [])
  }

  /** The number of dials in a trace. */
  function DialsOf(t: seq<Event>): nat {
    if t == [] then 0 else DialsOf(t[..|t| - 1]) + (if t[|t| - 1].Dial? then 1 else 0)
  }

  lemma {:induction false} BackoffReadBack(s: seq<nat>)
    ensures SleepsOf(Backoff(s)) == s
    ensures SleepsOf(Backoff(s) + [Dial]) == s
    ensures DialsOf(Backoff(s)) == |s|
    ensures DialsOf(Backoff(s) + [Dial]) == |s| + 1
    decreases |s|
  {
    if s != [] {
      var p := s[..|s| - 1];
      BackoffReadBack(p);
      var t := Backoff(p) + [Dial, Sleep(s[|s| - 1])];
      assert t[..|t| - 1] == Backoff(p) + [Dial];
      assert (Backoff(p) + [Dial])[..|Backoff(p)|] == Backoff(p);
      assert (t + [Dial])[..|t|] == t;
      assert s == p + [s[|s| - 1]];
    } else {
      assert ([] + [Dial])[..0] == [];
    }
  }

  /** A trace of the connect loop: dials and sleeps only. */
  predicate ConnectionEvents(t: seq<Event>) {
    forall i :: 0 <= i < |t| ==> t[i].Dial? || t[i].Sleep?
  }

  lemma {:induction false} BackoffEvents(s: seq<nat>)
    ensures ConnectionEvents(Backoff(s)) && ConnectionEvents(Backoff(s) + [Dial])
    decreases |s|
  {
    if s != [] {
      BackoffEvents(s[..|s| - 1]);
    }
  }

  /** The first `n` dials failed with an I/O error. */
  predicate AllFailed(dials: nat -> DialResult, n: nat) {
    forall j :: 0 <= j < n ==> dials(j) == IoFailure
  }

  /** The counters after the failed dials whose sleeps are `delays`. */
  function After(l: Link, delays: seq<nat>): Link {
    Link(l.attempts + |delays|, l.totalDelay + Sum(delays), l.handles)
  }

  /** One more failed dial extends the schedule by the backoff delay. */
  lemma ScheduleStep(attempts: nat, totalDelay: nat, s: seq<nat>, delay: nat)
    requires IsSchedule(attempts, totalDelay, s)
    requires attempts + |s| < MaxConnectionAttempts && totalDelay + Sum(s) < MaxTotalDelay
    requires delay == BackoffDelay(attempts + |s| + 1, totalDelay + Sum(s))
    ensures IsSchedule(attempts, totalDelay, s + [delay])
    ensures Sum(s + [delay]) == Sum(s) + delay
  {
    assert (s + [delay])[..|s|] == s;
  }

  /** The loop body of `connect` after an I/O failure keeps the schedule
      and stays within the budget. */
  lemma DialStep(l: Link, delays: seq<nat>, delay: nat)
    requires IsSchedule(l.attempts, l.totalDelay, delays) && !BudgetSpent(After(l, delays))
    requires delay == BackoffDelay(l.attempts + |delays| + 1, l.totalDelay + Sum(delays))
    ensures IsSchedule(l.attempts, l.totalDelay, delays + [delay])
    ensures Valid(After(l, delays + [delay]))
    ensures |delays| < MaxConnectionAttempts
  {
    ScheduleStep(l.attempts, l.totalDelay, delays, delay);
  }

  /** Every delay of a schedule is at least one second. */
  lemma {:induction false} SchedulePositive(attempts: nat, totalDelay: nat, s: seq<nat>)
    requires IsSchedule(attempts, totalDelay, s)
    ensures forall j :: 0 <= j < |s| ==> s[j] >= 1
    decreases |s|
  {
    if s != [] {
      SchedulePositive(attempts, totalDelay, s[..|s| - 1]);
      assert forall j :: 0 <= j < |s| - 1 ==> s[j] == s[..|s| - 1][j];
    }
  }

  /** The delays of a budget-spending `connect` from zeroed counters. */
  const DelaysFromZero: seq<nat> := [2, 4, 8, 1]

  /** Total slept after the first `i` of those delays. */
  lemma {:induction false} SumsFromZero(i: nat)
    requires i <= 4
    ensures Sum(DelaysFromZero[..i]) == [0, 2, 6, 14, 15][i]
  {
    if i > 0 {
      SumsFromZero(i - 1);
      assert DelaysFromZero[..i][..i - 1] == DelaysFromZero[..i - 1];
    }
  }

  /** Starting from zeroed counters the schedule can only be a prefix of
      2, 4, 8, 1: the fourth delay is cut to the 1 second left of 15. */
  lemma {:induction false} ScheduleFromZero(s: seq<nat>)
    requires IsSchedule(0, 0, s)
    ensures |s| <= 4 && s == DelaysFromZero[..|s|]
    decreases |s|
  {
    if s != [] {
      var p := s[..|s| - 1];
      ScheduleFromZero(p);
      SumsFromZero(|p|);
      assert s == p + [s[|s| - 1]];
    }
  }

  /** A `connect` from zeroed counters that spends its whole budget sleeps
      2, 4, 8 and 1 seconds, in that order. */
  lemma ExhaustionFromZero(s: seq<nat>)
    requires IsSchedule(0, 0, s)
    requires |s| >= MaxConnectionAttempts || Sum(s) >= MaxTotalDelay
    ensures s == DelaysFromZero && Sum(s) == MaxTotalDelay
  {
    ScheduleFromZero(s);
    SumsFromZero(|s|);
  }

  /** The `while` loop of `connect`: dial until a dial does not fail with
      an I/O error or the budget is spent, sleeping the backoff delay after
      each I/O failure. Returns the sleeps taken and the last dial result
      (`IoFailure` when the loop stopped on the budget). */
  method DialLoop(l: Link, dials: nat -> DialResult) returns (delays: seq<nat>, last: DialResult)
    ensures IsSchedule(l.attempts, l.totalDelay, delays)
    ensures forall j :: 0 <= j < |delays| ==> dials(j) == IoFailure
    ensures !last.IoFailure? ==> dials(|delays|) == last
    ensures last.IoFailure? ==> BudgetSpent(After(l, delays))
    ensures Valid(l) ==> Valid(After(l, delays))
    ensures BudgetSpent(l) ==> delays == [] && last.IoFailure?
  {
    delays := [];
    last := IoFailure;
    while !BudgetSpent(After(l, delays))
      invariant IsSchedule(l.attempts, l.totalDelay, delays)
      invariant AllFailed(dials, |delays|)
      invariant Valid(l) ==> Valid(After(l, delays))
      invariant last.IoFailure? && (BudgetSpent(l) ==> delays == [])
      decreases MaxConnectionAttempts - |delays|
    {
      last := dials(|delays|);
      if !last.IoFailure? {
        return;
      }
      var delay := BackoffDelay(l.attempts + |delays| + 1, l.totalDelay + Sum(delays));
      DialStep(l, delays, delay);
      assert AllFailed(dials, |delays| + 1);
      delays := delays + [delay];
    }
  }

  /** `connect`. */
  method Connect(l: Link, dials: nat -> DialResult) returns (r: Link, events: seq<Event>, outcome: ConnectOutcome)
    ensures events == Backoff(SleepsOf(events)) + (if outcome.Exhausted? then [] else [Dial])
    ensures IsSchedule(l.attempts, l.totalDelay, SleepsOf(events))
    ensures forall j :: 0 <= j < |SleepsOf(events)| ==> dials(j) == IoFailure && SleepsOf(events)[j] >= 1
    ensures outcome.Up? ==> dials(|SleepsOf(events)|) == Connected && r == Link(0, 0, true)
    ensures outcome.Raised? ==> dials(|SleepsOf(events)|) == OtherFailure(outcome.message)
    ensures !outcome.Up? ==>
      r == Link(l.attempts + |SleepsOf(events)|, l.totalDelay + Sum(SleepsOf(events)), l.handles)
    ensures outcome.Exhausted? ==> BudgetSpent(r) && outcome.message == ExhaustedMessage(r.totalDelay)
    ensures Valid(l) ==> Valid(r)
    ensures BudgetSpent(l) ==> events == [] && r == l && outcome == Exhausted(ExhaustedMessage(l.totalDelay))
    ensures (forall k :: dials(k) == IoFailure) ==> outcome.Exhausted?
    ensures DialsOf(events) == |SleepsOf(events)| + (if outcome.Exhausted? then 0 else 1)
    ensures DialsOf(events) == 0 <==> BudgetSpent(l)
    ensures ConnectionEvents(events)
  {
    var delays, last := DialLoop(l, dials);
    BackoffEvents(delays);
    BackoffReadBack(delays);
    SchedulePositive(l.attempts, l.totalDelay, delays);
    var spent := After(l, delays);
    if last.IoFailure? {
      events := Backoff(delays);
      assert SleepsOf(events) == delays;
      assert events == Backoff(delays) + [];
      r := spent;
      outcome := Exhausted(ExhaustedMessage(r.totalDelay));
    } else {
      events := Backoff(delays) + [Dial];
      assert SleepsOf(events) == delays;
      if last.Connected? {
        r := Link(0, 0, true);
        outcome := Up;
      } else {
        r := spent;
        outcome := Raised(last.message);
      }
    }
  }

  /** From zeroed counters, with every dial failing, `connect` dials four
      times, sleeps 2, 4, 8 and 1 seconds and gives up after 15. */
  method ConnectFromZeroAllFailing(handles: bool) returns (events: seq<Event>, outcome: ConnectOutcome)
    ensures SleepsOf(events) == [2, 4, 8, 1]
    ensures DialsOf(events) == 4
    ensures outcome == Exhausted(ExhaustedMessage(15))
  {
    var r;
    var dials: nat -> DialResult := _ => IoFailure;
    assert forall k :: dials(k) == IoFailure;
    r, events, outcome := Connect(Link(0, 0, handles), dials);
    var s := SleepsOf(events);
    assert outcome.Exhausted?;
    assert r == Link(|s|, Sum(s), handles);
    ExhaustionFromZero(s);
    BackoffReadBack(s);
    assert events == Backoff(s);
  }

  /** `close`: closes the channel and the connection if they were ever
      assigned. The counters are not touched. */
  function Close(l: Link): (t: seq<Event>)
    ensures l.handles ==> t == [CloseChannel, CloseConnection]
    ensures !l.handles ==> t == []
  {
    if l.handles then [CloseChannel, CloseConnection] else []
  }
}

=== FILE: envelope.dfy ===
/** The per-delivery envelope every consumer inherits: `__invoke` retries
    the consumer's `handle` up to `tries` times, logs each failure, and on
    the last one writes the message to the `not_processed_messages` table;
    `handleShutdown` escalates a fatal execution-time error.

    `handle` is an input: `outcomes(j)` is what the (j+1)-th call returned
    or threw. An alarm timeout is one such throw, with the message
    `TimeoutMessage`, as it would be if the alarm handler registered;
    `InvokeAsWritten` shows that it does not. Alarms, logs and inserts are
    recorded as effects. */
module ConsumerEnvelope {
  import opened Php
  import opened Optional

  const DefaultTries: int := 3
  const DefaultMaxTime: int := 30

  /** What the `SIGALRM` handler throws. */
  const TimeoutMessage := "Message processing timed out."

  /** PHP's `E_ERROR`. */
  const EError: int := 1

  /** A consumer object: its concrete class and its two settings. */
  datatype Consumer = Consumer(className: string, tries: int, maxTime: int)

  /** The runtime switches: `smallrabbit.log_errors`,
      `smallrabbit.save_not_processed_messages` and whether the `pcntl`
      extension is loaded. */
  datatype Env = Env(logEnabled: bool, saveNotProcessed: bool, pcntl: bool)

  /** One call of `handle`. */
  datatype Outcome<V> = Returned(value: V) | Threw(message: string)

  /** A row of `not_processed_messages` (timestamps left out). */
  datatype DeadLetter = DeadLetter(payload: string, error: string, consumerClass: string)

  /** The record `handleShutdown` hands to the `messages:error` command. */
  datatype Escalation = Escalation(error: string, payload: string, className: string)

  datatype Effect =
    | ArmAlarm(seconds: int)
    | ClearAlarm
    | Handle
    | Log(message: string, context: seq<string>)
    | Insert(row: DeadLetter)
    | Escalate(record: Escalation)

  /** One delivery: the consumer, the switches and the message body. */
  datatype Delivery = Delivery(consumer: Consumer, env: Env, body: string)

  /** A new consumer object. */
  function NewConsumer(className: string): (c: Consumer)
    ensures c.className == className && c.tries == DefaultTries && c.maxTime == DefaultMaxTime
  {
    Consumer(className, DefaultTries, DefaultMaxTime)
  }

  /** `setTries`: any integer is taken as it is, zero and negatives too. */
  function SetTries(c: Consumer, tries: int): (r: Consumer)
    ensures r.tries == tries && r.className == c.className && r.maxTime == c.maxTime
  {
    c.(tries := tries)
  }

  /** `setMaxTime`: any integer is taken as it is. */
  function SetMaxTime(c: Consumer, maxTime: int): (r: Consumer)
    ensures r.maxTime == maxTime && r.className == c.className && r.tries == c.tries
  {
    c.(maxTime := maxTime)
  }

  /** `log`: one error-log line when logging is on, nothing otherwise. */
  function LogLine(env: Env, message: string, context: seq<string>): (t: seq<Effect>)
    ensures env.logEnabled <==> t == [Log(message, context)]
    ensures !env.logEnabled <==> t == []
  {
    if env.logEnabled then [Log(message, context)] else []
  }

  /** `logToDB`: one insert when saving is on; a class that is missing or
      empty in PHP's sense is replaced by the consumer's own class. */
  function LogToDB(env: Env, self: string, payload: string, error: string, givenClass: Option<string>): (t: seq<Effect>)
    ensures env.saveNotProcessed <==> |t| == 1
    ensures !env.saveNotProcessed <==> t == []
    ensures |t| == 1 ==> t[0].Insert? && t[0].row.payload == payload && t[0].row.error == error
    ensures |t| == 1 && (givenClass.None? || IsEmpty(givenClass.value)) ==> t[0].row.consumerClass == self
    ensures |t| == 1 && givenClass.Some? && !IsEmpty(givenClass.value) ==> t[0].row.consumerClass == givenClass.value
  {
    if !env.saveNotProcessed then []
    else
      var consumerClass := if givenClass.None? || IsEmpty(givenClass.value) then self else givenClass.value;
      [Insert(DeadLetter(payload, error, consumerClass))]
  }

  function MaxAttemptsLine(className: string): string {
    "Max attempts reached for consumer: " + className
  }

  function AttemptLine(attempt: nat, className: string): string {
    "Attempt #" + NatToString(attempt) + " failed for consumer: " + className
  }

  function ErrorLine(className: string): string {
    "Consumer " + className + " error: "
  }

  function DeadLetterError(message: string): string {
    "Max attempts reached for consumer. Error: " + message
  }

  /** The number of calls `__invoke` allows: `tries`, or none when it is
      zero or negative. */
  function Budget(tries: int): nat {
    if tries <= 0 then 0 else tries
  }

  /** What precedes each call of `handle`: the alarm, if available. */
  function AttemptStart(d: Delivery): seq<Effect> {
    (if d.env.pcntl then [ArmAlarm(d.consumer.maxTime)] else []) + [Handle]
  }

  /** The body of the `catch` after the call that brought the count to
      `attempt` threw `message`. */
  function FailureEffects(d: Delivery, attempt: nat, message: string): seq<Effect> {
    var c := d.consumer.className;
    (if attempt >= d.consumer.tries then
       LogLine(d.env, MaxAttemptsLine(c), []) + LogToDB(d.env, c, d.body, DeadLetterError(message), None)
     else LogLine(d.env, AttemptLine(attempt, c), []))
    + LogLine(d.env, ErrorLine(c), [message])
  }

  predicate AllThrew<V>(outcomes: nat -> Outcome<V>, n: nat) {
    forall j :: 0 <= j < n ==> outcomes(j).Threw?
  }

  /** The effects of `n` calls that all threw, attempt by attempt. */
  function Failures<V>(d: Delivery, outcomes: nat -> Outcome<V>, n: nat): seq<Effect>
    requires AllThrew(outcomes, n)
  {
    if n == 0 then []
    else Failures(d, outcomes, n - 1) + AttemptStart(d) + FailureEffects(d, n, outcomes(n - 1).message)
  }

  /** The dead-letter rows among the effects, in order. */
  function InsertsOf(t: seq<Effect>): seq<DeadLetter> {
    if t == [] then [] else (if t[0].Insert? then [t[0].row] else []) + InsertsOf(t[1..])
  }

  lemma {:induction false} InsertsAppend(a: seq<Effect>, b: seq<Effect>)
    ensures InsertsOf(a + b) == InsertsOf(a) + InsertsOf(b)
    decreases |a|
  {
    if a == [] {
      assert a + b == b;
    } else {
      assert (a + b)[0] == a[0] && (a + b)[1..] == a[1..] + b;
      InsertsAppend(a[1..], b);
    }
  }

  /** The number of `handle` calls among the effects. */
  function CallsOf(t: seq<Effect>): nat {
    if t == [] then 0 else (if t[0].Handle? then 1 else 0) + CallsOf(t[1..])
  }

  lemma {:induction false} CallsAppend(a: seq<Effect>, b: seq<Effect>)
    ensures CallsOf(a + b) == CallsOf(a) + CallsOf(b)
    decreases |a|
  {
    if a == [] {
      assert a + b == b;
    } else {
      assert (a + b)[0] == a[0] && (a + b)[1..] == a[1..] + b;
      CallsAppend(a[1..], b);
    }
  }

  lemma {:induction false} NoCalls(t: seq<Effect>)
    requires forall i :: 0 <= i < |t| ==> !t[i].Handle?
    ensures CallsOf(t) == 0
    decreases |t|
  {
    if t != [] {
      NoCalls(t[1..]);
    }
  }

  lemma CallsOfStart(d: Delivery)
    ensures CallsOf(AttemptStart(d)) == 1
  {
    var start := AttemptStart(d);
    if d.env.pcntl {
      assert start[1..] == [Handle];
    }
    assert [Handle][1..] == [];
  }

  /** `n` failed calls invoke `handle` exactly `n` times. */
  lemma {:induction false} FailuresHandles<V>(d: Delivery, outcomes: nat -> Outcome<V>, n: nat)
    requires AllThrew(outcomes, n)
    ensures CallsOf(Failures(d, outcomes, n)) == n
  {
    if n > 0 {
      FailuresHandles(d, outcomes, n - 1);
      var before := Failures(d, outcomes, n - 1);
      var f := FailureEffects(d, n, outcomes(n - 1).message);
      NoCalls(f);
      CallsOfStart(d);
      CallsAppend(before, AttemptStart(d));
      CallsAppend(before + AttemptStart(d), f);
    }
  }

  lemma InsertsOfLogLine(env: Env, message: string, context: seq<string>)
    ensures InsertsOf(LogLine(env, message, context)) == []
  {
    if env.logEnabled {
      assert [Log(message, context)][1..] == [];
    }
  }

  lemma InsertsOfStart(d: Delivery)
    ensures InsertsOf(AttemptStart(d)) == []
  {
    var start := AttemptStart(d);
    if d.env.pcntl {
      assert start[1..] == [Handle];
    }
    assert [Handle][1..] == [];
  }

  lemma InsertsOfLogToDB(d: Delivery, message: string)
    ensures InsertsOf(LogToDB(d.env, d.consumer.className, d.body, DeadLetterError(message), None))
         == if d.env.saveNotProcessed then [DeadLetter(d.body, DeadLetterError(message), d.consumer.className)] else []
  {
    var row := DeadLetter(d.body, DeadLetterError(message), d.consumer.className);
    assert [Insert(row)][1..] == [];
  }

  /** Within the budget, the failures write one dead-letter row, and only
      once the last allowed call has thrown: payload the message body,
      error the "max attempts" text with the last error, class the
      consumer's own. */
  lemma {:induction false} FailuresInserts<V>(d: Delivery, outcomes: nat -> Outcome<V>, n: nat)
    requires AllThrew(outcomes, n) && n <= Budget(d.consumer.tries)
    ensures InsertsOf(Failures(d, outcomes, n)) ==
      if n >= 1 && n == d.consumer.tries && d.env.saveNotProcessed
      then [DeadLetter(d.body, DeadLetterError(outcomes(n - 1).message), d.consumer.className)]
      else []
  {
    if n > 0 {
      FailuresInserts(d, outcomes, n - 1);
      var m := outcomes(n - 1).message;
      var before := Failures(d, outcomes, n - 1);
      var f := FailureEffects(d, n, m);
      assert Failures(d, outcomes, n) == before + AttemptStart(d) + f;
      assert InsertsOf(before) == [] by {
        assert !(n - 1 >= 1 && n - 1 == d.consumer.tries);
      }
      InsertsAppend(before + AttemptStart(d), f);
      InsertsAppend(before, AttemptStart(d));
      InsertsOfStart(d);
      FailureEffectsInserts(d, n, m);
      assert InsertsOf(before + AttemptStart(d)) == [];
    }
  }

  /** The row one failure writes: only at or past the last allowed call. */
  lemma FailureEffectsInserts(d: Delivery, attempt: nat, message: string)
    ensures InsertsOf(FailureEffects(d, attempt, message)) ==
      if attempt >= d.consumer.tries && d.env.saveNotProcessed
      then [DeadLetter(d.body, DeadLetterError(message), d.consumer.className)]
      else []
  {
    var c := d.consumer.className;
    var tail := LogLine(d.env, ErrorLine(c), [message]);
    InsertsOfLogLine(d.env, ErrorLine(c), [message]);
    if attempt >= d.consumer.tries {
      var head := LogLine(d.env, MaxAttemptsLine(c), []);
      var row := LogToDB(d.env, c, d.body, DeadLetterError(message), None);
      InsertsOfLogLine(d.env, MaxAttemptsLine(c), []);
      InsertsOfLogToDB(d, message);
      InsertsAppend(head, row);
      InsertsAppend(head + row, tail);
    } else {
      var head := LogLine(d.env, AttemptLine(attempt, c), []);
      InsertsOfLogLine(d.env, AttemptLine(attempt, c), []);
      InsertsAppend(head, tail);
    }
  }

  /** With logging off, the failures log nothing. */
  lemma {:induction false} FailuresQuiet<V>(d: Delivery, outcomes: nat -> Outcome<V>, n: nat)
    requires AllThrew(outcomes, n) && !d.env.logEnabled
    ensures forall i :: 0 <= i < |Failures(d, outcomes, n)| ==> !Failures(d, outcomes, n)[i].Log?
  {
    if n > 0 {
      FailuresQuiet(d, outcomes, n - 1);
    }
  }

  /** Within the budget, the "max attempts" line is logged exactly when
      the last allowed call has thrown (and logging is on). */
  lemma {:induction false} MaxLineOnlyAtLast<V>(d: Delivery, outcomes: nat -> Outcome<V>, n: nat)
    requires AllThrew(outcomes, n) && n <= Budget(d.consumer.tries)
    ensures Log(MaxAttemptsLine(d.consumer.className), []) in Failures(d, outcomes, n)
        <==> d.env.logEnabled && n >= 1 && n == d.consumer.tries
  {
    if n > 0 {
      var c := d.consumer.className;
      MaxLineOnlyAtLast(d, outcomes, n - 1);
      NoMaxLineInAttemptLine(n, c);
      assert MaxAttemptsLine(c) != ErrorLine(c) by {
        assert MaxAttemptsLine(c)[0] != ErrorLine(c)[0];
      }
    }
  }

  lemma NoMaxLineInAttemptLine(n: nat, c: string)
    ensures MaxAttemptsLine(c) != AttemptLine(n, c)
  {
    assert MaxAttemptsLine(c)[0] == 'M';
    assert AttemptLine(n, c)[0] == 'A';
  }

  /** Every failure logs the "Consumer C error" line with the error
      message as context, and a failure before the last logs its attempt
      number. */
  lemma FailureLogsAttempt(d: Delivery, attempt: nat, message: string)
    requires d.env.logEnabled && 1 <= attempt
    ensures Log(ErrorLine(d.consumer.className), [message]) in FailureEffects(d, attempt, message)
    ensures attempt < d.consumer.tries ==>
      FailureEffects(d, attempt, message)[0] == Log(AttemptLine(attempt, d.consumer.className), [])
    ensures attempt >= d.consumer.tries ==>
      FailureEffects(d, attempt, message)[0] == Log(MaxAttemptsLine(d.consumer.className), [])
  {
  }

  /** The effects when the call after `k` failures returns: `k + 1`
      calls, no row. */
  lemma ReturnedEffects<V>(d: Delivery, outcomes: nat -> Outcome<V>, k: nat)
    requires AllThrew(outcomes, k) && k < Budget(d.consumer.tries)
    ensures CallsOf(Failures(d, outcomes, k) + AttemptStart(d)) == k + 1
    ensures InsertsOf(Failures(d, outcomes, k) + AttemptStart(d)) == []
  {
    FailuresHandles(d, outcomes, k);
    FailuresInserts(d, outcomes, k);
    InsertsAppend(Failures(d, outcomes, k), AttemptStart(d));
    InsertsOfStart(d);
    CallsAppend(Failures(d, outcomes, k), AttemptStart(d));
    CallsOfStart(d);
  }

  /** The effects when every allowed call threw. */
  lemma ExhaustedEffects<V>(d: Delivery, outcomes: nat -> Outcome<V>, n: nat, clear: seq<Effect>)
    requires AllThrew(outcomes, n) && n == Budget(d.consumer.tries)
    requires clear == [] || clear == [ClearAlarm]
    ensures CallsOf(Failures(d, outcomes, n) + clear) == n
    ensures n >= 1 && d.env.saveNotProcessed ==>
      InsertsOf(Failures(d, outcomes, n) + clear)
        == [DeadLetter(d.body, DeadLetterError(outcomes(n - 1).message), d.consumer.className)]
    ensures !(n >= 1 && d.env.saveNotProcessed) ==> InsertsOf(Failures(d, outcomes, n) + clear) == []
  {
    FailuresHandles(d, outcomes, n);
    FailuresInserts(d, outcomes, n);
    InsertsAppend(Failures(d, outcomes, n), clear);
    CallsAppend(Failures(d, outcomes, n), clear);
    if clear != [] {
      assert clear[1..] == [];
    }
  }

  /** Every `handle` call in `t` comes right after the alarm is armed for
      `seconds`. */
  predicate ArmedCalls(t: seq<Effect>, seconds: int) {
    forall i :: 0 <= i < |t| && t[i].Handle? ==> i >= 1 && t[i - 1] == ArmAlarm(seconds)
  }

  predicate NeverArmed(t: seq<Effect>) {
    forall i :: 0 <= i < |t| ==> !t[i].ArmAlarm?
  }

  /** The alarm inside the loop: never cleared, and armed for `maxTime`
      before every call when `pcntl` is loaded, never armed otherwise. */
  predicate AlarmDiscipline(d: Delivery, t: seq<Effect>) {
    && ClearAlarm !in t
    && (d.env.pcntl ==> ArmedCalls(t, d.consumer.maxTime))
    && (!d.env.pcntl ==> NeverArmed(t))
  }

  /** Log lines and rows only. */
  predicate Quiet(t: seq<Effect>) {
    forall i :: 0 <= i < |t| ==> t[i].Log? || t[i].Insert?
  }

  lemma QuietDiscipline(d: Delivery, t: seq<Effect>)
    requires Quiet(t)
    ensures AlarmDiscipline(d, t)
  {
  }

  lemma AlarmDisciplineAppend(d: Delivery, a: seq<Effect>, b: seq<Effect>)
    requires AlarmDiscipline(d, a) && AlarmDiscipline(d, b)
    ensures AlarmDiscipline(d, a + b)
  {
    var t := a + b;
    if d.env.pcntl {
      forall i | 0 <= i < |t| && t[i].Handle?
        ensures i >= 1 && t[i - 1] == ArmAlarm(d.consumer.maxTime)
      {
        if i < |a| {
          assert t[i] == a[i];
          assert t[i - 1] == a[i - 1];
        } else {
          assert t[i] == b[i - |a|];
          assert t[i - 1] == b[i - |a| - 1];
        }
      }
    } else {
      forall i | 0 <= i < |t|
        ensures !t[i].ArmAlarm?
      {
        if i < |a| {
          assert t[i] == a[i];
        } else {
          assert t[i] == b[i - |a|];
        }
      }
    }
  }

  lemma StartDiscipline(d: Delivery)
    ensures AlarmDiscipline(d, AttemptStart(d))
  {
    var start := AttemptStart(d);
    if d.env.pcntl {
      assert start == [ArmAlarm(d.consumer.maxTime), Handle];
    } else {
      assert start == [Handle];
    }
  }

  lemma FailureEffectsDiscipline(d: Delivery, attempt: nat, message: string)
    ensures AlarmDiscipline(d, FailureEffects(d, attempt, message))
  {
    var c := d.consumer.className;
    var errorLine := LogLine(d.env, ErrorLine(c), [message]);
    QuietDiscipline(d, errorLine);
    if attempt >= d.consumer.tries {
      var maxLine := LogLine(d.env, MaxAttemptsLine(c), []);
      var row := LogToDB(d.env, c, d.body, DeadLetterError(message), None);
      QuietDiscipline(d, maxLine);
      QuietDiscipline(d, row);
      AlarmDisciplineAppend(d, maxLine, row);
      AlarmDisciplineAppend(d, maxLine + row, errorLine);
    } else {
      var attemptLine := LogLine(d.env, AttemptLine(attempt, c), []);
      QuietDiscipline(d, attemptLine);
      AlarmDisciplineAppend(d, attemptLine, errorLine);
    }
  }

  /** Within the loop, each call runs under an alarm of `maxTime` seconds
      when `pcntl` is loaded, and the alarm is never cleared. */
  lemma {:induction false} FailuresDiscipline<V>(d: Delivery, outcomes: nat -> Outcome<V>, n: nat)
    requires AllThrew(outcomes, n)
    ensures AlarmDiscipline(d, Failures(d, outcomes, n))
  {
    if n > 0 {
      var before := Failures(d, outcomes, n - 1);
      var start := AttemptStart(d);
      var after := FailureEffects(d, n, outcomes(n - 1).message);
      assert Failures(d, outcomes, n) == before + start + after;
      FailuresDiscipline(d, outcomes, n - 1);
      StartDiscipline(d);
      FailureEffectsDiscipline(d, n, outcomes(n - 1).message);
      AlarmDisciplineAppend(d, before, start);
      AlarmDisciplineAppend(d, before + start, after);
    }
  }

  /** Each call of `handle` in `t` comes right after arming the alarm for
      `maxTime` seconds exactly when `pcntl` is loaded. */
  predicate CallsUnderAlarm(d: Delivery, t: seq<Effect>) {
    forall i :: 0 <= i < |t| && t[i].Handle? ==>
      (d.env.pcntl <==> (i >= 1 && t[i - 1] == ArmAlarm(d.consumer.maxTime)))
  }

  /** The alarm facts `__invoke` ends with, for the loop's effects `t`
      followed by the final clearing `tail` (if any). */
  lemma InvokeAlarms(d: Delivery, t: seq<Effect>, tail: seq<Effect>)
    requires AlarmDiscipline(d, t)
    requires tail == [] || tail == [ClearAlarm]
    ensures CallsUnderAlarm(d, t + tail)
    ensures tail == [] ==> ClearAlarm !in t + tail
    ensures tail == [ClearAlarm] ==> (t + tail)[|t + tail| - 1] == ClearAlarm
  {
    var e := t + tail;
    forall i | 0 <= i < |e| && e[i].Handle?
      ensures d.env.pcntl <==> (i >= 1 && e[i - 1] == ArmAlarm(d.consumer.maxTime))
    {
      assert i < |t| && e[i] == t[i];
      if i >= 1 {
        assert e[i - 1] == t[i - 1];
      }
    }
  }

  /** `__invoke`, with the alarm handler registered. Returns the value of
      the first call that returned (if any did within the budget), the
      number of calls that threw before it, and the effects in order. */
  method Invoke<V>(d: Delivery, outcomes: nat -> Outcome<V>) returns (result: Option<V>, failures: nat, effects: seq<Effect>)
    ensures AllThrew(outcomes, failures)
    ensures result.Some? ==>
      && failures < Budget(d.consumer.tries) && outcomes(failures) == Returned(result.value)
      && effects == Failures(d, outcomes, failures) + AttemptStart(d)
    ensures result.None? ==>
      && failures == Budget(d.consumer.tries)
      && effects == Failures(d, outcomes, failures) + (if d.env.pcntl then [ClearAlarm] else [])
    ensures result.None? <==> AllThrew(outcomes, Budget(d.consumer.tries))
    ensures CallsOf(effects) == failures + (if result.Some? then 1 else 0)
    ensures result.Some? ==> InsertsOf(effects) == []
    ensures result.None? && failures >= 1 && d.env.saveNotProcessed ==>
      InsertsOf(effects) == [DeadLetter(d.body, DeadLetterError(outcomes(failures - 1).message), d.consumer.className)]
    ensures result.None? && !(failures >= 1 && d.env.saveNotProcessed) ==> InsertsOf(effects) == []
    ensures CallsUnderAlarm(d, effects)
    ensures result.Some? ==> ClearAlarm !in effects
    ensures result.None? && d.env.pcntl ==> |effects| >= 1 && effects[|effects| - 1] == ClearAlarm
    ensures result.None? && !d.env.pcntl ==> ClearAlarm !in effects
  {
    failures, result, effects := RetryLoop(d, outcomes);
    FailuresDiscipline(d, outcomes, failures);
    if result.Some? {
      ReturnedEffects(d, outcomes, failures);
      assert !outcomes(failures).Threw?;
      StartDiscipline(d);
      AlarmDisciplineAppend(d, Failures(d, outcomes, failures), AttemptStart(d));
      InvokeAlarms(d, effects, []);
      assert effects + [] == effects;
    } else {
      var clear := if d.env.pcntl then [ClearAlarm] else [];
      ExhaustedEffects(d, outcomes, failures, clear);
      InvokeAlarms(d, effects, clear);
      effects := effects + clear;
    }
  }

  /** The `while` loop of `__invoke`: the number of calls that threw, the
      value of the call that returned (if one did), and the effects up to
      there. */
  method RetryLoop<V>(d: Delivery, outcomes: nat -> Outcome<V>) returns (failed: nat, result: Option<V>, effects: seq<Effect>)
    ensures AllThrew(outcomes, failed)
    ensures result.Some? ==>
      failed < Budget(d.consumer.tries) && outcomes(failed) == Returned(result.value)
      && effects == Failures(d, outcomes, failed) + AttemptStart(d)
    ensures result.None? ==> failed == Budget(d.consumer.tries) && effects == Failures(d, outcomes, failed)
  {
    failed := 0;
    effects := [];
    while failed < d.consumer.tries
      invariant failed <= Budget(d.consumer.tries)
      invariant AllThrew(outcomes, failed)
      invariant effects == Failures(d, outcomes, failed)
      decreases d.consumer.tries - failed
    {
      var o := outcomes(failed);
      if o.Returned? {
        return failed, Some(o.value), effects + AttemptStart(d);
      }
      failed := failed + 1;
      effects := effects + AttemptStart(d) + FailureEffects(d, failed, o.message);
    }
    return failed, None, effects;
  }

  /** With `tries` zero or negative, `handle` is never called: nothing is
      logged or written, only the alarm is cleared when there is one. */
  method InvokeWithoutTries<V>(d: Delivery, outcomes: nat -> Outcome<V>) returns (result: Option<V>, effects: seq<Effect>)
    requires d.consumer.tries <= 0
    ensures result.None?
    ensures effects == (if d.env.pcntl then [ClearAlarm] else [])
  {
    var failures;
    result, failures, effects := Invoke(d, outcomes);
  }

  /** `__invoke` as written. The handler is declared inside the namespace,
      so its name is `SmallRabbit\Utils\timeoutHandler`, but it is
      registered as the string `"timeoutHandler"`, which names a global
      function that does not exist. With `pcntl` loaded, `pcntl_signal`
      therefore raises a `TypeError` (PHP 8) before the loop: `handle` is
      never called, nothing is logged and no row is written. Without
      `pcntl` it is `Invoke`. */
  method InvokeAsWritten<V>(d: Delivery, outcomes: nat -> Outcome<V>) returns (raised: bool, result: Option<V>, effects: seq<Effect>)
    ensures raised <==> d.env.pcntl
    ensures raised ==> result.None? && effects == []
    ensures !raised ==> (result.None? <==> AllThrew(outcomes, Budget(d.consumer.tries)))
    ensures !raised && d.consumer.tries >= 1 ==> CallsOf(effects) >= 1
  {
    if d.env.pcntl {
      return true, None, [];
    }
    var failures;
    result, failures, effects := Invoke(d, outcomes);
    raised := false;
  }

  /** With `pcntl` loaded and at least one try, the code as written calls
      `handle` zero times, where `Invoke` (the handler registered under a
      name that resolves) calls it at least once. */
  method TimeoutHandlerNeverRegisters<V>(d: Delivery, outcomes: nat -> Outcome<V>) returns (asWritten: seq<Effect>, intended: seq<Effect>)
    requires d.env.pcntl && d.consumer.tries >= 1
    ensures CallsOf(asWritten) == 0
    ensures CallsOf(intended) >= 1
  {
    var raised, result, failures;
    raised, result, asWritten := InvokeAsWritten(d, outcomes);
    result, failures, intended := Invoke(d, outcomes);
  }

  /** `error_get_last()`: the type and message of the last error, if any. */
  datatype LastError = LastError(kind: int, message: string)

  /** The condition of `handleShutdown`. */
  predicate IsExecutionTimeout(e: Option<LastError>) {
    e.Some? && e.value.kind == EError && Contains(e.value.message, "Maximum execution time")
  }

  /** `handleShutdown`: on a fatal execution-time error, log and escalate
      the error message, the body and the class; otherwise do nothing. */
  function HandleShutdown(d: Delivery, lastError: Option<LastError>): (t: seq<Effect>)
    ensures t != [] <==> IsExecutionTimeout(lastError)
    ensures t != [] ==>
      t[|t| - 1] == Escalate(Escalation(lastError.value.message, d.body, d.consumer.className))
    ensures t != [] ==>
      (d.env.logEnabled <==> t[0] == Log("Worker timeout limit exceeded for job processing: " + d.consumer.className, []))
  {
    if IsExecutionTimeout(lastError) then
      LogLine(d.env, "Worker timeout limit exceeded for job processing: " + d.consumer.className, [])
      + [Escalate(Escalation(lastError.value.message, d.body, d.consumer.className))]
    else []
  }

  /** PHP's fatal "Maximum execution time of N seconds exceeded" is
      escalated, whatever surrounds the phrase. */
  lemma FatalTimeoutEscalates(d: Delivery, before: string, after: string)
    ensures var e := Some(LastError(EError, before + "Maximum execution time" + after));
            HandleShutdown(d, e) != [] && HandleShutdown(d, e)[|HandleShutdown(d, e)| - 1].Escalate?
  {
    ContainsInside(before, "Maximum execution time", after);
  }

  /** No other kind of error is escalated, whatever its message. */
  lemma OtherKindsNotEscalated(d: Delivery, kind: int, message: string)
    requires kind != EError
    ensures HandleShutdown(d, Some(LastError(kind, message))) == []
  {
  }

  /** A timeout is an ordinary failure: when every call times out, the
      row written after the last allowed call carries the timeout message. */
  lemma EveryCallTimesOut<V>(d: Delivery, outcomes: nat -> Outcome<V>, n: nat)
    requires d.env.saveNotProcessed && n >= 1 && n == d.consumer.tries
    requires forall j :: outcomes(j) == Threw(TimeoutMessage)
    ensures InsertsOf(Failures(d, outcomes, n))
         == [DeadLetter(d.body, DeadLetterError(TimeoutMessage), d.consumer.className)]
  {
    FailuresInserts(d, outcomes, n);
    assert outcomes(n - 1).message == TimeoutMessage;
  }
}

=== FILE: option.dfy ===
/** An optional value, for results that may be absent. */
module Optional {

  datatype Option<T> = None | Some(value: T)
}

=== FILE: php.dfy ===
/** The few PHP built-ins whose exact behaviour the handler relies on:
    `empty()` on strings, integer interpolation into strings, `explode`
    and `strpos`. */
module Php {

  /** `empty($s)` for a string: true for "" and also for "0". */
  predicate IsEmpty(s: string) {
    s == "" || s == "0"
  }

  predicate IsDigit(c: char) {
    '0' <= c <= '9'
  }

  predicate AllDigits(s: string) {
    forall i :: 0 <= i < |s| ==> IsDigit(s[i])
  }

  function DigitChar(d: nat): (c: char)
    requires d < 10
    ensures IsDigit(c)
    ensures c as int - '0' as int == d
  {
    ('0' as int + d) as char
  }

  /** Decimal rendering of a non-negative integer, as `"$n"` produces it. */
  function NatToString(n: nat): (s: string)
    ensures |s| >= 1
    ensures AllDigits(s)
    ensures s[0] == '0' <==> n == 0
  {
    if n < 10 then [DigitChar(n)] else NatToString(n / 10) + [DigitChar(n % 10)]
  }

  /** The value of a string of decimal digits. */
  function DigitsValue(s: string): nat
    requires AllDigits(s)
  {
    if s == [] then 0
    else 10 * DigitsValue(s[..|s| - 1]) + (s[|s| - 1] as int - '0' as int)
  }

  /** Reading back the rendered digits gives the number again. */
  lemma {:induction false} NatToStringRoundTrip(n: nat)
    ensures DigitsValue(NatToString(n)) == n
  {
    var s := NatToString(n);
    if n >= 10 {
      NatToStringRoundTrip(n / 10);
      assert s[..|s| - 1] == NatToString(n / 10);
    }
  }

  /** `implode` with a one-character glue. */
  function Implode(parts: seq<string>, sep: char): string
    requires |parts| >= 1
    decreases |parts|
  {
    if |parts| == 1 then parts[0] else parts[0] + [sep] + Implode(parts[1..], sep)
  }

  /** `explode` with a one-character separator: the pieces between
      separators, always at least one. */
  function Explode(s: string, sep: char): (parts: seq<string>)
    ensures |parts| >= 1
    ensures forall i :: 0 <= i < |parts| ==> sep !in parts[i]
    decreases |s|
  {
    if s == [] then [[]]
    else
      var rest := Explode(s[1..], sep);
      if s[0] == sep then [[]] + rest
      else [[s[0]] + rest[0]] + rest[1..]
  }

  /** A separator-free prefix joins the first piece of what follows it. */
  lemma {:induction false} ExplodePrefix(x: string, y: string, sep: char)
    requires sep !in x
    ensures Explode(x + y, sep) == [x + Explode(y, sep)[0]] + Explode(y, sep)[1..]
    decreases |x|
  {
    if x == [] {
      var e := Explode(y, sep);
      assert x + y == y;
      assert x + e[0] == e[0];
      assert e == [e[0]] + e[1..];
    } else {
      ExplodePrefix(x[1..], y, sep);
      assert (x + y)[1..] == x[1..] + y;
      assert (x + y)[0] == x[0];
      assert [x[0]] + (x[1..] + Explode(y, sep)[0]) == x + Explode(y, sep)[0];
    }
  }

  /** Splitting glued pieces that do not contain the separator gives the
      pieces back. */
  lemma {:induction false} ExplodeImplode(parts: seq<string>, sep: char)
    requires |parts| >= 1
    requires forall i :: 0 <= i < |parts| ==> sep !in parts[i]
    ensures Explode(Implode(parts, sep), sep) == parts
    decreases |parts|
  {
    if |parts| == 1 {
      ExplodePrefix(parts[0], [], sep);
      assert parts[0] + [] == parts[0];
    } else {
      var tail := Implode(parts[1..], sep);
      ExplodeImplode(parts[1..], sep);
      var rest := [sep] + tail;
      assert rest[1..] == tail;
      assert rest[0] == sep;
      var e := Explode(rest, sep);
      assert e == [[]] + parts[1..];
      assert e[0] == [] && e[1..] == parts[1..];
      ExplodePrefix(parts[0], rest, sep);
      assert Implode(parts, sep) == parts[0] + rest;
      assert parts[0] + e[0] == parts[0];
      assert parts == [parts[0]] + parts[1..];
    }
  }

  /** `strpos($hay, $needle) !== false`: the needle occurs somewhere. */
  predicate Contains(hay: string, needle: string) {
    exists i | 0 <= i <= |hay| - |needle| :: OccursAt(hay, needle, i)
  }

  predicate OccursAt(hay: string, needle: string, i: int) {
    0 <= i && i + |needle| <= |hay| && hay[i..i + |needle|] == needle
  }

  /** An occurrence anywhere inside a larger message is found. */
  lemma ContainsInside(pre: string, needle: string, post: string)
    ensures Contains(pre + needle + post, needle)
  {
    var hay := pre + needle + post;
    assert hay[|pre|..|pre| + |needle|] == needle;
    assert OccursAt(hay, needle, |pre|);
  }
}

=== FILE: publisher.dfy ===
/** The send path of the handler: `validateSendArguments`, the three-way
    destination choice of `send`, and `toJsonSend`.

    A send either fails before touching the channel (a validation error),
    fails after declaring the exchange (an exchange-only publish with no
    recorded binding to go to), or ends with exactly one persistent publish.
    The transport-error branch of `send` (reconnect and resend) is modelled
    with the handler, in `Rabbit`. */
module Publisher {
  import opened Php
  import opened Optional
  import opened Broker
  import opened Topology

  /** The arguments of `send`. */
  datatype SendRequest = SendRequest(
    message: string,
    queue: string,
    exchange: string,
    routingKey: string,
    exchangeType: string)

  /** The exchange types `validateSendArguments` accepts. */
  predicate ValidExchangeType(kind: string) {
    kind in ["direct", "topic", "headers", "fanout"]
  }

  /** The types for which a routing key is compulsory. */
  predicate NeedsRoutingKey(kind: string) {
    kind in ["direct", "topic"]
  }

  /** Why a send failed, one case per exception `send` can raise outside
      the transport branch. `RoutingKeyRequiredForExchange` is the fifth
      validation check, which repeats the fourth word for word. */
  datatype SendError =
    | EmptyMessage
    | NoDestination
    | RoutingKeyNeedsExchange
    | InvalidExchangeType
    | RoutingKeyRequired
    | RoutingKeyRequiredForExchange
    | Unroutable(exchange: string, routingKey: string)

  /** The exception message of each error. */
  function ErrorMessage(e: SendError): string {
    match e
    case EmptyMessage => "Error: Message cannot be empty."
    case NoDestination => "Error: Both exchange and queue cannot be empty."
    case RoutingKeyNeedsExchange => "Error: Exchange name must be provided if routing key is specified."
    case InvalidExchangeType =>
      "Error: Invalid exchange type. Valid types are 'direct', 'topic', 'headers', 'fanout'."
    case RoutingKeyRequired => "Error: Routing key is required for 'direct' and 'topic' exchange types."
    case RoutingKeyRequiredForExchange =>
      "Error: Routing key is required for 'direct' and 'topic' exchange types when an exchange is specified."
    case Unroutable(x, k) =>
      "Error: The exchange '" + x + "' with routing key '" + k + "' is not bound to any queue!"
  }

  /** The argument shapes the handler accepts, stated as one conjunction
      rather than as a sequence of checks. */
  predicate Acceptable(req: SendRequest) {
    && !IsEmpty(req.message)
    && (!IsEmpty(req.exchange) || !IsEmpty(req.queue))
    && (IsEmpty(req.exchange) ==> IsEmpty(req.routingKey))
    && (!IsEmpty(req.exchange) ==> ValidExchangeType(req.exchangeType))
    && (!IsEmpty(req.exchange) && NeedsRoutingKey(req.exchangeType) ==> !IsEmpty(req.routingKey))
  }

  /** `validateSendArguments`: the first failing check, in source order. */
  function Validate(req: SendRequest): (r: Option<SendError>)
    ensures r.None? <==> Acceptable(req)
    ensures r == Some(EmptyMessage) <==> IsEmpty(req.message)
    ensures r == Some(NoDestination) <==>
      !IsEmpty(req.message) && IsEmpty(req.exchange) && IsEmpty(req.queue)
    ensures r == Some(RoutingKeyNeedsExchange) <==>
      !IsEmpty(req.message) && IsEmpty(req.exchange) && !IsEmpty(req.queue) && !IsEmpty(req.routingKey)
    ensures r == Some(InvalidExchangeType) <==>
      !IsEmpty(req.message) && !IsEmpty(req.exchange) && !ValidExchangeType(req.exchangeType)
    ensures r == Some(RoutingKeyRequired) <==>
      !IsEmpty(req.message) && !IsEmpty(req.exchange) && ValidExchangeType(req.exchangeType)
      && NeedsRoutingKey(req.exchangeType) && IsEmpty(req.routingKey)
    ensures r != Some(RoutingKeyRequiredForExchange)
    ensures r.Some? ==> !r.value.Unroutable?
  {
    if IsEmpty(req.message) then Some(EmptyMessage)
    else if IsEmpty(req.exchange) && IsEmpty(req.queue) then Some(NoDestination)
    else if !IsEmpty(req.routingKey) && IsEmpty(req.exchange) then Some(RoutingKeyNeedsExchange)
    else if !IsEmpty(req.exchange) && !ValidExchangeType(req.exchangeType) then Some(InvalidExchangeType)
    else if !IsEmpty(req.exchange) && IsEmpty(req.routingKey) && NeedsRoutingKey(req.exchangeType) then
      Some(RoutingKeyRequired)
    else if !IsEmpty(req.exchange) && IsEmpty(req.routingKey) && NeedsRoutingKey(req.exchangeType) then
      Some(RoutingKeyRequiredForExchange)
    else None
  }

  /** How a send ended. */
  datatype SendOutcome = Published | Failed(error: SendError)

  /** The caches after the send, the channel calls and log lines it made,
      and how it ended. */
  datatype SendResult = SendResult(caches: Caches, events: seq<Event>, outcome: SendOutcome)

  /** Every branch of `send` keeps these: the caches account for exactly
      the declarations and binds in the trace, nothing cached before is
      redeclared, and a send publishes once or not at all. */
  predicate WellFormed(c: Caches, r: SendResult) {
    && Replay(c, r.events) == Some(r.caches)
    && (r.outcome.Published? ==> |r.events| >= 1 && r.events[|r.events| - 1].Publish?
                                 && Publishes(r.events) == [r.events[|r.events| - 1]])
    && (r.outcome.Failed? ==> Publishes(r.events) == [])
  }

  /** `send` without the transport-error branch. */
  function Send(c: Caches, logEnabled: bool, req: SendRequest): (r: SendResult)
    ensures Validate(req).Some? ==> r == SendResult(c, [], Failed(Validate(req).value))
    ensures r.outcome.Published? ==> Acceptable(req)
    ensures WellFormed(c, r)
    ensures Acceptable(req) && !IsEmpty(req.queue) && !IsEmpty(req.exchange) ==>
      && r.outcome == Published
      && BindingKey(req.exchange, req.queue, req.routingKey) in r.caches.bindings
      && r.events[|r.events| - 1] == Publish(req.message, req.exchange, req.routingKey, Persistent)
    ensures Acceptable(req) && IsEmpty(req.queue) ==>
      && (r.outcome.Published? <==> CheckExchangeBindings(c.bindings, req.exchange, req.routingKey))
      && (r.outcome.Published? ==>
            r.events[|r.events| - 1] == Publish(req.message, req.exchange, req.routingKey, Persistent))
      && (r.outcome.Failed? ==> r.outcome.error == Unroutable(req.exchange, req.routingKey))
      && r.caches.bindings == c.bindings
    ensures Acceptable(req) && IsEmpty(req.exchange) ==>
      && r.outcome == Published
      && r.events[|r.events| - 1] == Publish(req.message, req.exchange, req.queue, Persistent)
      && r.caches.bindings == c.bindings
  {
    match Validate(req)
    case Some(e) =>
      assert Publishes([]) == [];
      SendResult(c, [], Failed(e))
    case None =>
      if !IsEmpty(req.queue) && !IsEmpty(req.exchange) then SendBound(c, req)
      else if !IsEmpty(req.exchange) then SendToExchange(c, logEnabled, req)
      else SendToQueue(c, req)
  }

  /** Queue and exchange both given: bind them, then publish with the
      routing key as given. */
  function SendBound(c: Caches, req: SendRequest): (r: SendResult)
    ensures WellFormed(c, r) && r.outcome == Published
    ensures r.events[|r.events| - 1] == Publish(req.message, req.exchange, req.routingKey, Persistent)
    ensures req.queue in r.caches.queues && req.exchange in r.caches.exchanges
    ensures BindingKey(req.exchange, req.queue, req.routingKey) in r.caches.bindings
  {
    var b := EnsureBinding(c, req.queue, req.exchange, req.exchangeType, req.routingKey);
    EnsureBindingCalls(c, req.queue, req.exchange, req.exchangeType, req.routingKey);
    Finish(c, b, Publish(req.message, req.exchange, req.routingKey, Persistent))
  }

  /** Exchange only: declare it if needed, then publish only if some
      recorded binding on it routes the key; otherwise fail (and log). */
  function SendToExchange(c: Caches, logEnabled: bool, req: SendRequest): (r: SendResult)
    ensures WellFormed(c, r)
    ensures req.exchange in r.caches.exchanges
    ensures r.caches.queues == c.queues && r.caches.bindings == c.bindings
    ensures r.outcome.Published? <==> CheckExchangeBindings(c.bindings, req.exchange, req.routingKey)
    ensures r.outcome.Published? ==>
      r.events[|r.events| - 1] == Publish(req.message, req.exchange, req.routingKey, Persistent)
    ensures r.outcome.Failed? ==> r.outcome.error == Unroutable(req.exchange, req.routingKey)
    ensures r.outcome.Failed? ==>
      (logEnabled <==> Log(ErrorMessage(r.outcome.error)) in r.events)
  {
    var x := EnsureExchange(c, req.exchange, req.exchangeType);
    if CheckExchangeBindings(x.caches.bindings, req.exchange, req.routingKey) then
      Finish(c, x, Publish(req.message, req.exchange, req.routingKey, Persistent))
    else
      Reject(c, x, logEnabled, Unroutable(req.exchange, req.routingKey))
  }

  /** Queue only: declare it if needed and publish through the exchange
      argument (empty in PHP's sense) with the queue name as routing key. */
  function SendToQueue(c: Caches, req: SendRequest): (r: SendResult)
    ensures WellFormed(c, r) && r.outcome == Published
    ensures r.events[|r.events| - 1] == Publish(req.message, req.exchange, req.queue, Persistent)
    ensures req.queue in r.caches.queues
    ensures r.caches.exchanges == c.exchanges && r.caches.bindings == c.bindings
  {
    var q := EnsureQueue(c, req.queue);
    Finish(c, q, Publish(req.message, req.exchange, req.queue, Persistent))
  }

  /** A topology step followed by the publish. */
  function Finish(c: Caches, s: Step, publish: Event): (r: SendResult)
    requires publish.Publish?
    requires Replay(c, s.events) == Some(s.caches)
    requires forall i :: 0 <= i < |s.events| ==> !s.events[i].Publish?
    ensures r.caches == s.caches && r.events == s.events + [publish] && r.outcome == Published
    ensures Replay(c, r.events) == Some(r.caches)
    ensures Publishes(r.events) == [publish]
  {
    ReplayAppend(c, s.events, [publish]);
    PublishesAppend(s.events, [publish]);
    NoPublishes(s.events);
    SendResult(s.caches, s.events + [publish], Published)
  }

  /** A topology step followed by the failure, logged when logging is on. */
  function Reject(c: Caches, s: Step, logEnabled: bool, e: SendError): (r: SendResult)
    requires Replay(c, s.events) == Some(s.caches)
    requires forall i :: 0 <= i < |s.events| ==> !s.events[i].Publish? && !s.events[i].Log?
    ensures r.caches == s.caches && r.outcome == Failed(e)
    ensures Replay(c, r.events) == Some(r.caches)
    ensures Publishes(r.events) == []
    ensures logEnabled <==> Log(ErrorMessage(e)) in r.events
  {
    var log := LogIf(logEnabled, ErrorMessage(e));
    ReplayAppend(c, s.events, log);
    PublishesAppend(s.events, log);
    NoPublishes(s.events);
    NoPublishes(log);
    assert Log(ErrorMessage(e)) !in s.events;
    assert logEnabled ==> (s.events + log)[|s.events|] == Log(ErrorMessage(e));
    SendResult(s.caches, s.events + log, Failed(e))
  }

  /** The final `else` of `send` cannot be reached: validation has
      already rejected a request with neither a queue nor an exchange. */
  lemma FinalElseUnreachable(req: SendRequest)
    requires Validate(req).None?
    ensures !IsEmpty(req.queue) || !IsEmpty(req.exchange)
  {
  }

  /** PHP's `empty()` makes `"0"` no exchange at all: a send with queue `q`
      and exchange `"0"` takes the queue-only branch, and publishes through
      exchange `"0"` with routing key `q`, never binding anything. */
  lemma ZeroExchangeIsQueueOnly(c: Caches, logEnabled: bool, message: string, queue: string)
    requires !IsEmpty(message) && !IsEmpty(queue)
    ensures var r := Send(c, logEnabled, SendRequest(message, queue, "0", "", "no-such-type"));
            && r.outcome == Published
            && r.events[|r.events| - 1] == Publish(message, "0", queue, Persistent)
            && r.caches.bindings == c.bindings
  {
  }

  /** `send("hi", queueName: "q1")` on a new handler: one declare of `q1`,
      then one publish to the default exchange with routing key `q1`. */
  lemma QueueOnlyScenario(logEnabled: bool)
    ensures Send(Empty, logEnabled, SendRequest("hi", "q1", "", "", "direct"))
         == SendResult(Caches({"q1"}, {}, {}), [QueueDeclare("q1"), Publish("hi", "", "q1", Persistent)], Published)
  {
  }

  /** `send("hi", exchangeName: "ex", routingKey: "rk", exchangeType: "topic")`
      on a new handler: the exchange is declared, nothing is published and
      the send fails as unroutable. */
  lemma UnroutableScenario(logEnabled: bool)
    ensures var r := Send(Empty, logEnabled, SendRequest("hi", "", "ex", "rk", "topic"));
            && r.outcome == Failed(Unroutable("ex", "rk"))
            && Publishes(r.events) == []
            && r.events[0] == ExchangeDeclare("ex", "topic")
  {
  }

  /** The number of sends in a batch that published. */
  function PublishedCount(outcomes: seq<SendOutcome>): nat {
    if outcomes == [] then 0
    else (if outcomes[0].Published? then 1 else 0) + PublishedCount(outcomes[1..])
  }

  /** Several sends on one handler, in order. */
  datatype Batch = Batch(caches: Caches, events: seq<Event>, outcomes: seq<SendOutcome>)

  /** Sends one request after the other, each starting from the caches the
      previous one left. The whole trace replays from the first caches: over
      any sequence of sends, nothing is declared or bound twice. */
  function SendAll(c: Caches, logEnabled: bool, reqs: seq<SendRequest>): (r: Batch)
    ensures |r.outcomes| == |reqs|
    ensures Replay(c, r.events) == Some(r.caches)
    ensures |Publishes(r.events)| == PublishedCount(r.outcomes)
    decreases |reqs|
  {
    if reqs == [] then
      assert Publishes([]) == [];
      Batch(c, [], [])
    else
      var first := Send(c, logEnabled, reqs[0]);
      var rest := SendAll(first.caches, logEnabled, reqs[1..]);
      ReplayAppend(c, first.events, rest.events);
      PublishesAppend(first.events, rest.events);
      var outcomes := [first.outcome] + rest.outcomes;
      assert outcomes[1..] == rest.outcomes;
      Batch(rest.caches, first.events + rest.events, outcomes)
  }

  /** Over a batch, no queue, exchange or binding key is declared twice,
      nor one the handler had cached before the batch. */
  lemma SendAllDeclaresOnce(c: Caches, logEnabled: bool, reqs: seq<SendRequest>)
    ensures var t := SendAll(c, logEnabled, reqs).events;
            && (forall i :: 0 <= i < |t| ==> !Known(c, t[i]))
            && (forall i, j :: 0 <= i < j < |t| ==> !SameResource(t[i], t[j]))
  {
    ReplayDeclaresOnce(c, SendAll(c, logEnabled, reqs).events);
  }

  /** `toJsonSend` as written: the call to `send` passes `''` for the
      queue, the exchange and the routing key, whatever the caller gave.
      `json` is the rendered payload; an object or array renders as text
      starting with `{` or `[`, but a `JsonSerializable` payload can render
      as `0`, which `send` rejects as an empty message. */
  function ToJsonSend(c: Caches, logEnabled: bool, json: string, queue: string, exchange: string,
                      routingKey: string, exchangeType: string): (r: SendResult)
    ensures IsEmpty(json) ==> r == SendResult(c, [], Failed(EmptyMessage))
    ensures !IsEmpty(json) ==> r == SendResult(c, [], Failed(NoDestination))
  {
    Send(c, logEnabled, SendRequest(json, "", "", "", exchangeType))
  }

  /** A JSON send to a queue, which the method exists for, never gets
      through. */
  lemma ToJsonSendToQueueFails(c: Caches, logEnabled: bool, json: string, queue: string)
    requires !IsEmpty(json) && !IsEmpty(queue)
    ensures Send(c, logEnabled, SendRequest(json, queue, "", "", "direct")).outcome == Published
    ensures ToJsonSend(c, logEnabled, json, queue, "", "", "direct").outcome == Failed(NoDestination)
  {
  }

  /** `toJsonSend` with its arguments forwarded to `send`. */
  function ToJsonSendFixed(c: Caches, logEnabled: bool, json: string, queue: string, exchange: string,
                           routingKey: string, exchangeType: string): (r: SendResult)
    ensures r.outcome == Failed(EmptyMessage) <==> IsEmpty(json)
    ensures r.outcome == Failed(NoDestination) <==> !IsEmpty(json) && IsEmpty(queue) && IsEmpty(exchange)
    ensures WellFormed(c, r)
  {
    Send(c, logEnabled, SendRequest(json, queue, exchange, routingKey, exchangeType))
  }

  /** The corrected `toJsonSend` reaches the queue it is given. */
  lemma ToJsonSendFixedReachesQueue(c: Caches, logEnabled: bool, json: string, queue: string)
    requires !IsEmpty(json) && !IsEmpty(queue)
    ensures var r := ToJsonSendFixed(c, logEnabled, json, queue, "", "", "direct");
            && r.outcome == Published
            && r.events[|r.events| - 1] == Publish(json, "", queue, Persistent)
            && queue in r.caches.queues
  {
  }
}

=== FILE: rabbit.dfy ===
/** The handler object as a whole: its declared caches, its connection
    counters and its consumer registry, with the operations that move
    between them (`__construct`, `reconnect`, `setConsumers`), and the
    transport-error branch of `send`, which reconnects and resends. */
module Rabbit {
  import opened Php
  import opened Optional
  import opened Broker
  import opened Topology
  import opened Connection
  import opened Publisher

  /** A registry entry of `setConsumers`: the array key and the class name. */
  datatype ConsumerEntry = ConsumerEntry(key: string, className: string)

  datatype Handler = Handler(caches: Caches, link: Link, consumers: seq<ConsumerEntry>)

  /** The private constructor: connect, and have a handler only if that
      worked. */
  method Open(dials: nat -> DialResult) returns (h: Option<Handler>, events: seq<Event>, outcome: ConnectOutcome)
    ensures h.Some? <==> outcome.Up?
    ensures h.Some? ==> h.value == Handler(Empty, Link(0, 0, true), [])
    ensures DialsOf(events) >= 1 && ConnectionEvents(events)
  {
    var l;
    l, events, outcome := Connect(Initial, dials);
    if outcome.Up? {
      h := Some(Handler(Empty, l, []));
    } else {
      h := None;
    }
  }

  /** `reconnect`: `close`, then `connect`. The declared caches and the
      consumer registry are left as they were. */
  method Reconnect(h: Handler, dials: nat -> DialResult) returns (r: Handler, events: seq<Event>, outcome: ConnectOutcome)
    ensures r.caches == h.caches && r.consumers == h.consumers
    ensures Replay(h.caches, events) == Some(r.caches)
    ensures |events| >= |Close(h.link)| && events[..|Close(h.link)|] == Close(h.link)
    ensures outcome.Up? ==> r.link == Link(0, 0, true)
    ensures BudgetSpent(h.link) ==>
      events == Close(h.link) && r == h && outcome == Exhausted(ExhaustedMessage(h.link.totalDelay))
    ensures DialsOf(events) == 0 <==> BudgetSpent(h.link)
    ensures LinkEvents(events)
  {
    var closing := Close(h.link);
    var l, opening;
    l, opening, outcome := Connect(h.link, dials);
    events := closing + opening;
    CloseAndConnectReplay(h.caches, closing, opening);
    assert events[..|closing|] == closing;
    if BudgetSpent(h.link) {
      assert events == closing + [];
    }
    r := h.(link := l);
  }

  /** A trace of `close` and `connect`: dials, sleeps and the two closes. */
  predicate LinkEvents(t: seq<Event>) {
    forall i :: 0 <= i < |t| ==> t[i].Dial? || t[i].Sleep? || t[i].CloseChannel? || t[i].CloseConnection?
  }

  /** Closing and dialling declare nothing, and closing dials nothing. */
  lemma CloseAndConnectReplay(c: Caches, closing: seq<Event>, opening: seq<Event>)
    requires closing == [] || closing == [CloseChannel, CloseConnection]
    requires ConnectionEvents(opening)
    ensures Replay(c, closing + opening) == Some(c)
    ensures DialsOf(closing + opening) == DialsOf(opening)
    ensures LinkEvents(closing + opening)
  {
    NoDeclarations(closing + opening);
    DialsAppend(closing, opening);
    assert DialsOf(closing) == 0 by {
      if closing != [] {
        assert [CloseChannel][..0] == [];
        assert DialsOf([CloseChannel]) == 0;
        assert closing[..|closing| - 1] == [CloseChannel];
      }
    }
  }

  /** The dials of a joined trace add up. */
  lemma {:induction false} DialsAppend(a: seq<Event>, b: seq<Event>)
    ensures DialsOf(a + b) == DialsOf(a) + DialsOf(b)
    decreases |b|
  {
    if b == [] {
      assert a + b == a;
    } else {
      var p := b[..|b| - 1];
      DialsAppend(a, p);
      assert (a + b)[..|a + b| - 1] == a + p;
    }
  }

  /** Connection traces hold no declaration or bind: replaying them leaves
      the caches alone. */
  lemma {:induction false} NoDeclarations(t: seq<Event>)
    requires LinkEvents(t)
    ensures forall c :: Replay(c, t) == Some(c)
    decreases |t|
  {
    if t != [] {
      NoDeclarations(t[1..]);
      assert forall c :: !Known(c, t[0]) && Record(c, t[0]) == c;
    }
  }

  /** Once a `connect` has given up, a later `reconnect` closes, dials
      nothing, keeps the counters and gives up again, whatever the broker
      would now answer. */
  method ReconnectAfterExhaustion(h: Handler, first: nat -> DialResult, later: nat -> DialResult)
    returns (firstOutcome: ConnectOutcome, r: Handler, events: seq<Event>, outcome: ConnectOutcome)
    ensures firstOutcome.Exhausted? ==>
      && DialsOf(events) == 0
      && outcome == firstOutcome
      && r.link.attempts >= h.link.attempts && r.link.totalDelay >= h.link.totalDelay
      && r.caches == h.caches
  {
    var l1, e1;
    l1, e1, firstOutcome := Connect(h.link, first);
    var h1 := h.(link := l1);
    r, events, outcome := Reconnect(h1, later);
  }

  /** Why `setConsumers` rejects a class: it does not exist, or it is not a
      consumer. */
  function RejectMessage(className: string, classExists: string -> bool): string {
    if !classExists(className) then "Class " + className + " not found."
    else "Class " + className + " should be subclass of AbstractConsumer."
  }

  /** `setConsumers`: check every class in order; the first failing one
      raises and leaves the registry as it was, otherwise the registry is
      replaced by the new entries. Class lookup and the subclass test are
      parameters. */
  method SetConsumers(h: Handler, entries: seq<ConsumerEntry>, classExists: string -> bool, isConsumer: string -> bool)
    returns (r: Handler, error: Option<string>)
    ensures error.None? <==> forall i :: 0 <= i < |entries| ==> classExists(entries[i].className) && isConsumer(entries[i].className)
    ensures error.None? ==> r == h.(consumers := entries)
    ensures error.Some? ==> r == h
    ensures error.Some? ==>
      exists i :: (0 <= i < |entries|
        && (forall j :: 0 <= j < i ==> classExists(entries[j].className) && isConsumer(entries[j].className))
        && !(classExists(entries[i].className) && isConsumer(entries[i].className))
        && error.value == RejectMessage(entries[i].className, classExists))
  {
    var i := 0;
    while i < |entries|
      invariant 0 <= i <= |entries|
      invariant forall j :: 0 <= j < i ==> classExists(entries[j].className) && isConsumer(entries[j].className)
    {
      var name := entries[i].className;
      if !classExists(name) || !isConsumer(name) {
        return h, Some(RejectMessage(name, classExists));
      }
      i := i + 1;
    }
    return h.(consumers := entries), None;
  }

  /** What `send` logs once a resend after a transport error returned. */
  const ReconnectedMessage := "RabbitMQ connection error. Reconnection initialized"

  /** The arguments `send` passes to itself after a transport error. By
      then the queue-only branch has overwritten `$routingKey` with the
      queue name, and the recursive call passes the overwritten variable. */
  function ResendRequest(req: SendRequest): SendRequest {
    if IsEmpty(req.exchange) && !IsEmpty(req.queue) then req.(routingKey := req.queue) else req
  }

  /** An accepted queue-only request comes back from the transport-error
      branch with a routing key and no exchange, which validation rejects. */
  lemma QueueOnlyResendRejected(req: SendRequest)
    requires Validate(req).None? && IsEmpty(req.exchange)
    ensures Validate(ResendRequest(req)) == Some(RoutingKeyNeedsExchange)
  {
    assert !IsEmpty(req.queue);
  }

  /** The other branches resend exactly what the caller asked for. */
  lemma OtherResendsUnchanged(req: SendRequest)
    requires !IsEmpty(req.exchange)
    ensures ResendRequest(req) == req
  {
  }

  /** A finished send followed by the log line of the transport-error
      `catch`, which only a published resend reaches: a resend that raises
      (a validation error or an unroutable publish) leaves the `catch`
      block first. */
  function LogAfterResend(c: Caches, s: SendResult, logEnabled: bool): (r: SendResult)
    requires WellFormed(c, s)
    ensures r.outcome == s.outcome && r.caches == s.caches
    ensures Replay(c, r.events) == Some(r.caches)
    ensures r.outcome.Published? ==> |Publishes(r.events)| == 1
    ensures r.outcome.Failed? ==> Publishes(r.events) == []
    ensures r.outcome.Published? && logEnabled ==> r.events == s.events + [Log(ReconnectedMessage)]
    ensures !(s.outcome.Published? && logEnabled) ==> r.events == s.events
  {
    var log := if s.outcome.Published? then LogIf(logEnabled, ReconnectedMessage) else [];
    ReplayAppend(c, s.events, log);
    PublishesAppend(s.events, log);
    NoPublishes(log);
    SendResult(s.caches, s.events + log, s.outcome)
  }

  /** The transport-error `catch` of `send`, for a given resend request:
      `reconnect`, then resend and log. A `connect` that gives up or raises
      leaves the `catch` block with nothing resent. */
  method Recover(h: Handler, logEnabled: bool, resend: SendRequest, dials: nat -> DialResult)
    returns (r: Handler, events: seq<Event>, connected: ConnectOutcome, resent: Option<SendOutcome>)
    ensures resent.Some? <==> connected.Up?
    ensures resent.Some? ==> resent.value == Send(h.caches, logEnabled, resend).outcome
    ensures r.consumers == h.consumers && (connected.Up? ==> r.link == Link(0, 0, true))
    ensures Replay(h.caches, events) == Some(r.caches)
    ensures resent == Some(Published) ==> |Publishes(events)| == 1
    ensures resent != Some(Published) ==> Publishes(events) == []
    ensures resent == Some(Published) && logEnabled ==> events[|events| - 1] == Log(ReconnectedMessage)
  {
    var opening;
    r, opening, connected := Reconnect(h, dials);
    NoPublishes(opening);
    if !connected.Up? {
      events := opening;
      resent := None;
      return;
    }
    var s := LogAfterResend(r.caches, Send(r.caches, logEnabled, resend), logEnabled);
    events := opening + s.events;
    ReplayAppend(h.caches, opening, s.events);
    PublishesAppend(opening, s.events);
    r := r.(caches := s.caches);
    resent := Some(s.outcome);
  }

  /** The transport-error branch of `send` as written: it resends with the
      overwritten routing key. After a reconnect, a queue-only send always
      fails validation ("Exchange name must be provided if routing key is
      specified.") and publishes nothing; the other branches resend as the
      caller asked. A second transport error in the resend is not
      modelled. */
  method SendAfterTransportError(h: Handler, logEnabled: bool, req: SendRequest, dials: nat -> DialResult)
    returns (r: Handler, events: seq<Event>, connected: ConnectOutcome, resent: Option<SendOutcome>)
    requires Validate(req).None?
    ensures resent.Some? <==> connected.Up?
    ensures r.consumers == h.consumers && Replay(h.caches, events) == Some(r.caches)
    ensures IsEmpty(req.exchange) && resent.Some? ==>
      resent.value == Failed(RoutingKeyNeedsExchange) && Publishes(events) == []
    ensures !IsEmpty(req.exchange) && resent.Some? ==> resent.value == Send(h.caches, logEnabled, req).outcome
  {
    r, events, connected, resent := Recover(h, logEnabled, ResendRequest(req), dials);
    if IsEmpty(req.exchange) {
      QueueOnlyResendRejected(req);
    }
  }

  /** The transport-error branch with the caller's routing key kept apart
      from the one the queue-only branch publishes with: the resend is the
      original request, so a reconnected queue-only send is published. */
  method SendAfterTransportErrorFixed(h: Handler, logEnabled: bool, req: SendRequest, dials: nat -> DialResult)
    returns (r: Handler, events: seq<Event>, connected: ConnectOutcome, resent: Option<SendOutcome>)
    requires Validate(req).None?
    ensures resent.Some? <==> connected.Up?
    ensures r.consumers == h.consumers && Replay(h.caches, events) == Some(r.caches)
    ensures resent.Some? ==> resent.value == Send(h.caches, logEnabled, req).outcome
    ensures IsEmpty(req.exchange) && resent.Some? ==> resent.value == Published && |Publishes(events)| == 1
  {
    r, events, connected, resent := Recover(h, logEnabled, req, dials);
  }
}

=== FILE: routing.dfy ===
/** The routing-pattern test the handler uses to decide whether an
    exchange-only publish has a recorded binding to go to.

    The handler rewrites a binding pattern into a PCRE expression
    (`.` becomes `\.`, `*` becomes `[^.]+`, `#` becomes `.*`) and runs
    `preg_match('/^' . pattern . '$/', key)`. `Matches` below is that
    expression, written as a recursive matcher over characters with PCRE's
    default (no flag) meaning:
      - `.` in the pattern matches only a `.`;
      - `*` matches one or more characters that are not `.` (a newline is
        such a character);
      - `#` matches any run, possibly empty, of characters other than a
        newline (PCRE's `.` does not match a newline), dots included;
      - any other character matches itself;
      - the end anchor `$` matches at the end of the key or just before a
        newline that ends the key.
    This is not the topic-exchange rule of section 3.1.3.3 of the AMQP 0-9-1
    specification: there `orders.#` also matches `orders`, here it does not. */
module Routing {

  /** Characters that would be regular-expression syntax, or the `/`
      delimiter, once the pattern is pasted into the expression. */
  predicate SupportedChar(c: char) {
    c !in "\\^$[]()|?+{}/\n"
  }

  /** A pattern made only of literal characters, `.`, `*` and `#`. */
  predicate Supported(p: string) {
    forall i :: 0 <= i < |p| ==> SupportedChar(p[i])
  }

  predicate NoWildcards(p: string) {
    '*' !in p && '#' !in p
  }

  /** Whole-key match of the translated pattern. */
  predicate Matches(p: string, k: string)
    decreases |p|, |k|, 0
  {
    if p == [] then k == [] || k == "\n"
    else if p[0] == '*' then |k| > 0 && k[0] != '.' && StarRest(p[1..], k[1..])
    else if p[0] == '#' then HashRest(p[1..], k)
    else |k| > 0 && k[0] == p[0] && Matches(p[1..], k[1..])
  }

  /** `[^.]+` has consumed one character: it may stop here or eat more. */
  predicate StarRest(q: string, k: string)
    decreases |q|, |k|, 1
  {
    Matches(q, k) || (|k| > 0 && k[0] != '.' && StarRest(q, k[1..]))
  }

  /** `.*` may stop here or eat one more non-newline character. */
  predicate HashRest(q: string, k: string)
    decreases |q|, |k|, 1
  {
    Matches(q, k) || (|k| > 0 && k[0] != '\n' && HashRest(q, k[1..]))
  }

  /** `routingKeyMatches($pattern, $routingKey)`. A pattern holding other
      regular-expression syntax is taken as matching nothing. */
  predicate RoutingKeyMatches(pattern: string, key: string) {
    Supported(pattern) && Matches(pattern, key)
  }

  /** Number of `.` separators in a string. */
  function Dots(s: string): nat {
    multiset(s)['.']
  }

  /** Number of pattern characters that must each consume at least one key
      character: everything except `#`. */
  function FixedLength(p: string): nat {
    if p == [] then 0 else (if p[0] == '#' then 0 else 1) + FixedLength(p[1..])
  }

  /** A pattern without wildcards matches exactly itself (and itself
      followed by the newline the end anchor lets through). */
  lemma {:induction false} LiteralMatchesOnlyItself(p: string, k: string)
    requires NoWildcards(p)
    ensures Matches(p, k) <==> (k == p || k == p + "\n")
    decreases |p|
  {
    if p != [] {
      assert p[0] in p;
      assert forall c :: c in p[1..] ==> c in p;
      LiteralMatchesOnlyItself(p[1..], if |k| > 0 then k[1..] else k);
      if |k| > 0 {
        assert k == [k[0]] + k[1..];
        assert p == [p[0]] + p[1..];
        assert p + "\n" == [p[0]] + (p[1..] + "\n");
      }
    }
  }

  /** Without `#`, every separator of the key is one of the pattern's own:
      `*` never crosses a `.`. */
  lemma {:induction false} DotsPreserved(p: string, k: string)
    requires '#' !in p
    requires Matches(p, k)
    ensures Dots(k) == Dots(p)
    decreases |p|, |k|, 0
  {
    if p == [] {
      assert k == [] || k == "\n";
    } else {
      assert forall c :: c in p[1..] ==> c in p;
      assert p == [p[0]] + p[1..];
      assert k == [k[0]] + k[1..];
      if p[0] == '*' {
        StarRestDots(p[1..], k[1..]);
      } else {
        DotsPreserved(p[1..], k[1..]);
      }
    }
  }

  lemma {:induction false} StarRestDots(q: string, k: string)
    requires '#' !in q
    requires StarRest(q, k)
    ensures Dots(k) == Dots(q)
    decreases |q|, |k|, 1
  {
    if Matches(q, k) {
      DotsPreserved(q, k);
    } else {
      StarRestDots(q, k[1..]);
      assert k == [k[0]] + k[1..];
    }
  }

  /** A matched key is at least as long as the pattern's non-`#` part. */
  lemma {:induction false} MinimumLength(p: string, k: string)
    requires Matches(p, k)
    ensures |k| >= FixedLength(p)
    decreases |p|, |k|, 0
  {
    if p != [] {
      if p[0] == '*' {
        RestMinimumLength(p[1..], k[1..]);
      } else if p[0] == '#' {
        RestMinimumLength(p[1..], k);
      } else {
        MinimumLength(p[1..], k[1..]);
      }
    }
  }

  lemma {:induction false} RestMinimumLength(q: string, k: string)
    requires StarRest(q, k) || HashRest(q, k)
    ensures |k| >= FixedLength(q)
    decreases |q|, |k|, 1
  {
    if Matches(q, k) {
      MinimumLength(q, k);
    } else {
      RestMinimumLength(q, k[1..]);
    }
  }

  /** After its first character, `[^.]+` followed by nothing accepts
      exactly the dot-free remainders. */
  lemma {:induction false} StarRestAtEnd(k: string)
    ensures StarRest([], k) <==> '.' !in k
    decreases |k|
  {
    if k != [] {
      StarRestAtEnd(k[1..]);
      assert k == [k[0]] + k[1..];
    }
  }

  /** The pattern `*` matches exactly the non-empty keys without a `.`. */
  lemma SingleStar(k: string)
    ensures Matches("*", k) <==> |k| >= 1 && '.' !in k
  {
    assert "*"[1..] == [];
    if |k| > 0 {
      StarRestAtEnd(k[1..]);
      assert k == [k[0]] + k[1..];
    }
  }

  /** `[^.]+` can swallow any dot-free run before the rest of the match. */
  lemma {:induction false} StarRestSwallows(q: string, m: string, rest: string)
    requires '.' !in m
    requires Matches(q, rest)
    ensures StarRest(q, m + rest)
    decreases |m|
  {
    if m == [] {
      assert m + rest == rest;
    } else {
      StarRestSwallows(q, m[1..], rest);
      assert (m + rest)[1..] == m[1..] + rest;
      assert (m + rest)[0] == m[0];
    }
  }

  /** `.*` can swallow any newline-free run before the rest of the match. */
  lemma {:induction false} HashRestSwallows(q: string, m: string, rest: string)
    requires '\n' !in m
    requires Matches(q, rest)
    ensures HashRest(q, m + rest)
    decreases |m|
  {
    if m == [] {
      assert m + rest == rest;
    } else {
      HashRestSwallows(q, m[1..], rest);
      assert (m + rest)[1..] == m[1..] + rest;
      assert (m + rest)[0] == m[0];
    }
  }

  /** A literal prefix is matched character by character. */
  lemma {:induction false} LiteralPrefix(a: string, p: string, k: string)
    requires NoWildcards(a)
    requires Matches(p, k)
    ensures Matches(a + p, a + k)
    decreases |a|
  {
    if a == [] {
      assert a + p == p && a + k == k;
    } else {
      assert a[0] in a;
      assert forall c :: c in a[1..] ==> c in a;
      LiteralPrefix(a[1..], p, k);
      assert (a + p)[0] == a[0] && (a + p)[1..] == a[1..] + p;
      assert (a + k)[0] == a[0] && (a + k)[1..] == a[1..] + k;
    }
  }

  /** What a literal prefix leaves: the key starts with it, and the rest
      of the pattern matches the rest of the key. */
  lemma {:induction false} LiteralPrefixInverse(a: string, p: string, k: string)
    requires NoWildcards(a)
    requires Matches(a + p, k)
    ensures |a| <= |k| && k[..|a|] == a && Matches(p, k[|a|..])
    decreases |a|
  {
    if a == [] {
      assert a + p == p;
    } else {
      assert a[0] in a;
      assert forall c :: c in a[1..] ==> c in a;
      assert (a + p)[0] == a[0] && (a + p)[1..] == a[1..] + p;
      LiteralPrefixInverse(a[1..], p, k[1..]);
      assert k[1..][|a| - 1..] == k[|a|..];
      assert k[..|a|] == [k[0]] + k[1..][..|a| - 1];
      assert a == [a[0]] + a[1..];
    }
  }

  /** `*b` with literal `b` matches one dot-free segment, then `b`, then
      nothing or the final newline. */
  lemma StarThenLiteral(m: string, b: string, e: string)
    requires NoWildcards(b)
    requires |m| >= 1 && '.' !in m
    requires e == "" || e == "\n"
    ensures Matches("*" + b, m + b + e)
  {
    LiteralMatchesOnlyItself(b, b + e);
    assert e == "" ==> b + e == b;
    StarRestSwallows(b, m[1..], b + e);
    var p := "*" + b;
    var k := m + b + e;
    assert p[0] == '*' && p[1..] == b;
    assert k[0] == m[0] && k[1..] == m[1..] + (b + e);
    assert m[0] in m;
  }

  /** `a*b` with literal `a` and `b` matches `a`, one dot-free segment, `b`,
      and optionally the final newline. */
  lemma StarSegmentMatches(a: string, m: string, b: string)
    requires NoWildcards(a) && NoWildcards(b)
    requires |m| >= 1 && '.' !in m
    ensures Matches(a + "*" + b, a + m + b)
    ensures Matches(a + "*" + b, a + m + b + "\n")
  {
    assert a + "*" + b == a + ("*" + b);
    StarThenLiteral(m, b, "");
    assert m + b + "" == m + b;
    LiteralPrefix(a, "*" + b, m + b);
    assert a + m + b == a + (m + b);
    StarThenLiteral(m, b, "\n");
    LiteralPrefix(a, "*" + b, m + b + "\n");
    assert a + m + b + "\n" == a + (m + b + "\n");
  }

  /** After the first character of `[^.]+`, a literal `b` leaves a
      dot-free run, then `b`, then nothing or the final newline. */
  lemma {:induction false} StarRestBeforeLiteral(b: string, k: string) returns (m: string)
    requires NoWildcards(b)
    requires StarRest(b, k)
    ensures '.' !in m && (k == m + b || k == m + b + "\n")
    decreases |k|
  {
    if Matches(b, k) {
      LiteralMatchesOnlyItself(b, k);
      m := [];
      assert m + b == b;
    } else {
      var rest := StarRestBeforeLiteral(b, k[1..]);
      m := [k[0]] + rest;
      assert k == [k[0]] + k[1..];
      assert m + b == [k[0]] + (rest + b);
      assert m + b + "\n" == [k[0]] + (rest + b + "\n");
    }
  }

  /** Every key `*b` accepts is a non-empty dot-free segment, `b`, and
      possibly the final newline; the segment is returned. */
  lemma StarThenLiteralShape(b: string, k: string) returns (m: string)
    requires NoWildcards(b)
    requires Matches("*" + b, k)
    ensures |m| >= 1 && '.' !in m
    ensures k == m + b || k == m + b + "\n"
  {
    var p := "*" + b;
    assert p[0] == '*' && p[1..] == b;
    var rest := StarRestBeforeLiteral(b, k[1..]);
    m := [k[0]] + rest;
    assert k == [k[0]] + k[1..];
    assert m + b == [k[0]] + (rest + b);
    assert m + b + "\n" == [k[0]] + (rest + b + "\n");
  }

  /** Every key `a*b` accepts is `a`, a non-empty dot-free segment, `b`,
      and possibly the final newline; the segment is returned. */
  lemma StarSegmentShape(a: string, b: string, k: string) returns (m: string)
    requires NoWildcards(a) && NoWildcards(b)
    requires Matches(a + "*" + b, k)
    ensures |m| >= 1 && '.' !in m
    ensures k == a + m + b || k == a + m + b + "\n"
  {
    assert a + "*" + b == a + ("*" + b);
    LiteralPrefixInverse(a, "*" + b, k);
    var k' := k[|a|..];
    m := StarThenLiteralShape(b, k');
    assert k == a + k';
    assert a + m + b == a + (m + b);
    assert a + m + b + "\n" == a + (m + b + "\n");
  }

  /** `a*b` with literal `a` and `b` matches exactly `a`, one non-empty
      dot-free segment, `b`, and optionally the final newline. */
  lemma StarBetweenLiterals(a: string, b: string, k: string)
    requires NoWildcards(a) && NoWildcards(b)
    ensures Matches(a + "*" + b, k) <==>
      exists m :: |m| >= 1 && '.' !in m && (k == a + m + b || k == a + m + b + "\n")
  {
    if Matches(a + "*" + b, k) {
      var m := StarSegmentShape(a, b, k);
      assert |m| >= 1 && '.' !in m && (k == a + m + b || k == a + m + b + "\n");
    }
    if exists m :: |m| >= 1 && '.' !in m && (k == a + m + b || k == a + m + b + "\n") {
      var m :| |m| >= 1 && '.' !in m && (k == a + m + b || k == a + m + b + "\n");
      StarSegmentMatches(a, m, b);
    }
  }

  /** `a#` with literal `a` matches `a`, any newline-free text, and
      optionally the final newline. */
  lemma HashTailMatches(a: string, t: string)
    requires NoWildcards(a)
    requires '\n' !in t
    ensures Matches(a + "#", a + t)
    ensures Matches(a + "#", a + t + "\n")
  {
    assert "#"[0] == '#' && "#"[1..] == [];
    assert Matches([], []);
    HashRestSwallows([], t, []);
    assert t + [] == t;
    assert Matches("#", t);
    LiteralPrefix(a, "#", t);
    assert Matches([], "\n");
    HashRestSwallows([], t, "\n");
    assert Matches("#", t + "\n");
    LiteralPrefix(a, "#", t + "\n");
    assert a + t + "\n" == a + (t + "\n");
  }

  /** `.*` at the end of a pattern leaves a newline-free run and possibly
      the final newline. */
  lemma {:induction false} HashRestAtEnd(k: string) returns (t: string)
    requires HashRest([], k)
    ensures '\n' !in t && (k == t || k == t + "\n")
    decreases |k|
  {
    if Matches([], k) {
      t := [];
      assert t + "\n" == "\n";
    } else {
      var rest := HashRestAtEnd(k[1..]);
      t := [k[0]] + rest;
      assert k == [k[0]] + k[1..];
      assert t + "\n" == [k[0]] + (rest + "\n");
    }
  }

  /** Every key `a#` accepts is `a`, a newline-free tail, and possibly the
      final newline; the tail is returned. */
  lemma HashTailShape(a: string, k: string) returns (t: string)
    requires NoWildcards(a)
    requires Matches(a + "#", k)
    ensures '\n' !in t && (k == a + t || k == a + t + "\n")
  {
    LiteralPrefixInverse(a, "#", k);
    assert "#"[0] == '#' && "#"[1..] == [];
    t := HashRestAtEnd(k[|a|..]);
    assert k == a + k[|a|..];
    assert a + t + "\n" == a + (t + "\n");
  }

  /** `a#` with literal `a` matches exactly `a` followed by a newline-free
      tail (empty and dotted tails included), and optionally the final
      newline. */
  lemma LiteralThenHash(a: string, k: string)
    requires NoWildcards(a)
    ensures Matches(a + "#", k) <==>
      exists t :: '\n' !in t && (k == a + t || k == a + t + "\n")
  {
    if Matches(a + "#", k) {
      var t := HashTailShape(a, k);
      assert '\n' !in t && (k == a + t || k == a + t + "\n");
    }
    if exists t :: '\n' !in t && (k == a + t || k == a + t + "\n") {
      var t :| '\n' !in t && (k == a + t || k == a + t + "\n");
      HashTailMatches(a, t);
    }
  }

  /** A key with a different number of separators than a `#`-free
      pattern is never matched by it. */
  lemma DotCountMismatch(p: string, k: string)
    requires '#' !in p
    requires Dots(k) != Dots(p)
    ensures !Matches(p, k)
  {
    if Matches(p, k) {
      DotsPreserved(p, k);
    }
  }

  /** A key shorter than the pattern's non-`#` part is never matched. */
  lemma TooShort(p: string, k: string)
    requires |k| < FixedLength(p)
    ensures !Matches(p, k)
  {
    if Matches(p, k) {
      MinimumLength(p, k);
    }
  }

  /** A `*` between literal segments stands for one segment. */
  lemma StarOneSegmentExample()
    ensures Matches("orders.*.created", "orders.eu.created")
  {
    StarSegmentMatches("orders.", "eu", ".created");
    assert "orders." + "*" + ".created" == "orders.*.created";
    assert "orders." + "eu" + ".created" == "orders.eu.created";
  }

  /** ... and never for two: `a.*.b` does not match `a.x.y.b`, so
      `orders.*.created` does not match `orders.eu.west.created`. */
  lemma StarNeverSpansTwoSegments(a: string, x: string, y: string, b: string)
    requires '#' !in a && '#' !in b
    requires '.' !in x && '.' !in y
    ensures !Matches(a + ".*." + b, a + "." + x + "." + y + "." + b)
  {
    var p := a + ".*." + b;
    var k := a + "." + x + "." + y + "." + b;
    assert '#' !in ".*.";
    assert '#' !in p;
    assert Dots(p) == Dots(a) + 2 + Dots(b);
    assert Dots(k) == Dots(a) + 3 + Dots(b);
    DotCountMismatch(p, k);
  }

  /** ... nor for none. */
  lemma StarNotEmptyExample()
    ensures !Matches("orders.*", "orders")
  {
    assert FixedLength("orders.*") == 8;
    TooShort("orders.*", "orders");
  }

  /** A trailing `#` takes any tail, even an empty one after the dot. */
  lemma HashTailExamples()
    ensures Matches("orders.#", "orders.eu.west")
    ensures Matches("orders.#", "orders.created")
    ensures Matches("orders.#", "orders.")
  {
    assert "orders." + "#" == "orders.#";
    HashTailMatches("orders.", "eu.west");
    assert "orders." + "eu.west" == "orders.eu.west";
    HashTailMatches("orders.", "created");
    assert "orders." + "created" == "orders.created";
    HashTailMatches("orders.", "");
    assert "orders." + "" == "orders.";
  }

  /** ... but it does not make the dot before it optional. */
  lemma HashNeedsDotExample()
    ensures !Matches("orders.#", "orders")
  {
    assert FixedLength("orders.#") == 7;
    TooShort("orders.#", "orders");
  }
}

=== FILE: topology.dfy ===
/** The three "declared" caches of the handler and the idempotent
    `ensureQueue` / `ensureExchange` / `ensureBinding` operations built on
    them, with the lookup `checkExchangeBindings` that decides whether an
    exchange-only publish has somewhere to go.

    A channel call is made only when its name (or binding key) is not yet
    cached; the cache is then updated. `Replay` reads a trace of channel
    calls back into caches and fails on the first declaration of something
    already declared, so `Replay(c, t) == Some(c')` says at once that the
    trace redeclares nothing and that it accounts for every cache entry. */
module Topology {
  import opened Php
  import opened Optional
  import opened Broker
  import Routing

  datatype Caches = Caches(queues: set<string>, exchanges: set<string>, bindings: set<string>)

  /** The caches of a new handler. */
  const Empty := Caches({}, {}, {})

  /** New caches and the channel calls made to get there. */
  datatype Step = Step(caches: Caches, events: seq<Event>)

  /** `sprintf('%s|%s|%s', $exchangeName, $queueName, $routingKey)`. */
  function BindingKey(exchange: string, queue: string, routingKey: string): string {
    exchange + "|" + queue + "|" + routingKey
  }

  /** The cache entry a trace event stands for, if it is a declaration. */
  predicate Known(c: Caches, e: Event) {
    match e
    case QueueDeclare(q) => q in c.queues
    case ExchangeDeclare(x, _) => x in c.exchanges
    case QueueBind(q, x, k) => BindingKey(x, q, k) in c.bindings
    case _ => false
  }

  /** Two events that declare the same cached resource. */
  predicate SameResource(a: Event, b: Event) {
    || (a.QueueDeclare? && b.QueueDeclare? && a.queue == b.queue)
    || (a.ExchangeDeclare? && b.ExchangeDeclare? && a.exchange == b.exchange)
    || (a.QueueBind? && b.QueueBind?
        && BindingKey(a.exchange, a.queue, a.routingKey) == BindingKey(b.exchange, b.queue, b.routingKey))
  }

  function Record(c: Caches, e: Event): Caches {
    match e
    case QueueDeclare(q) => c.(queues := c.queues + {q})
    case ExchangeDeclare(x, _) => c.(exchanges := c.exchanges + {x})
    case QueueBind(q, x, k) => c.(bindings := c.bindings + {BindingKey(x, q, k)})
    case _ => c
  }

  /** Reads a trace into caches; `None` as soon as something already
      declared is declared again. Events other than declarations and binds
      leave the caches alone. */
  function Replay(c: Caches, t: seq<Event>): Option<Caches>
    decreases |t|
  {
    if t == [] then Some(c)
    else if Known(c, t[0]) then None
    else Replay(Record(c, t[0]), t[1..])
  }

  lemma {:induction false} ReplayAppend(c: Caches, a: seq<Event>, b: seq<Event>)
    ensures Replay(c, a + b) == (match Replay(c, a) case None => None case Some(d) => Replay(d, b))
    decreases |a|
  {
    if a == [] {
      assert a + b == b;
    } else {
      assert (a + b)[0] == a[0] && (a + b)[1..] == a[1..] + b;
      if !Known(c, a[0]) {
        ReplayAppend(Record(c, a[0]), a[1..], b);
      }
    }
  }

  /** A trace that replays declares every queue, exchange and binding key
      at most once, and none that was cached before it started. */
  lemma {:induction false} ReplayDeclaresOnce(c: Caches, t: seq<Event>)
    requires Replay(c, t).Some?
    ensures forall i :: 0 <= i < |t| ==> !Known(c, t[i])
    ensures forall i, j :: 0 <= i < j < |t| ==> !SameResource(t[i], t[j])
    decreases |t|
  {
    if t != [] {
      var d := Record(c, t[0]);
      ReplayDeclaresOnce(d, t[1..]);
      forall i | 0 <= i < |t|
        ensures !Known(c, t[i])
      {
        if i > 0 {
          assert t[i] == t[1..][i - 1];
          assert !Known(d, t[i]);
        }
      }
      forall i, j | 0 <= i < j < |t|
        ensures !SameResource(t[i], t[j])
      {
        assert t[j] == t[1..][j - 1];
        assert !Known(d, t[j]);
        if i > 0 {
          assert t[i] == t[1..][i - 1];
        }
      }
    }
  }

  /** `ensureQueue`: declare the queue on its first use only. */
  function EnsureQueue(c: Caches, queue: string): (r: Step)
    ensures queue in r.caches.queues
    ensures r.caches.exchanges == c.exchanges && r.caches.bindings == c.bindings
    ensures r.events == [] <==> queue in c.queues
    ensures queue in c.queues ==> r.caches == c
    ensures queue !in c.queues ==> r.events == [QueueDeclare(queue)] && r.caches.queues == c.queues + {queue}
    ensures Replay(c, r.events) == Some(r.caches)
  {
    if queue in c.queues then Step(c, [])
    else Step(c.(queues := c.queues + {queue}), [QueueDeclare(queue)])
  }

  /** `ensureExchange`: declare the exchange on the first use of its name,
      whatever type later calls ask for. */
  function EnsureExchange(c: Caches, exchange: string, kind: string): (r: Step)
    ensures exchange in r.caches.exchanges
    ensures r.caches.queues == c.queues && r.caches.bindings == c.bindings
    ensures r.events == [] <==> exchange in c.exchanges
    ensures exchange in c.exchanges ==> r.caches == c
    ensures exchange !in c.exchanges ==>
      r.events == [ExchangeDeclare(exchange, kind)] && r.caches.exchanges == c.exchanges + {exchange}
    ensures Replay(c, r.events) == Some(r.caches)
  {
    if exchange in c.exchanges then Step(c, [])
    else Step(c.(exchanges := c.exchanges + {exchange}), [ExchangeDeclare(exchange, kind)])
  }

  /** `ensureBinding`: make sure both ends exist, then bind once per key. */
  function EnsureBinding(c: Caches, queue: string, exchange: string, kind: string, routingKey: string): (r: Step)
    ensures queue in r.caches.queues && exchange in r.caches.exchanges
    ensures BindingKey(exchange, queue, routingKey) in r.caches.bindings
    ensures Replay(c, r.events) == Some(r.caches)
  {
    var q := EnsureQueue(c, queue);
    var x := EnsureExchange(q.caches, exchange, kind);
    var key := BindingKey(exchange, queue, routingKey);
    ReplayAppend(c, q.events, x.events);
    if key in x.caches.bindings then Step(x.caches, q.events + x.events)
    else
      ReplayAppend(c, q.events + x.events, [QueueBind(queue, exchange, routingKey)]);
      Step(x.caches.(bindings := x.caches.bindings + {key}),
           q.events + x.events + [QueueBind(queue, exchange, routingKey)])
  }

  /** The calls `ensureBinding` makes are exactly the missing ones, queue
      first, then exchange, then the bind. */
  lemma EnsureBindingCalls(c: Caches, queue: string, exchange: string, kind: string, routingKey: string)
    ensures EnsureBinding(c, queue, exchange, kind, routingKey).events ==
      (if queue in c.queues then [] else [QueueDeclare(queue)])
      + (if exchange in c.exchanges then [] else [ExchangeDeclare(exchange, kind)])
      + (if BindingKey(exchange, queue, routingKey) in c.bindings then [] else [QueueBind(queue, exchange, routingKey)])
  {
  }

  /** A repeated `ensureQueue` changes nothing and calls nothing. */
  lemma EnsureQueueIdempotent(c: Caches, queue: string)
    ensures var r := EnsureQueue(c, queue); EnsureQueue(r.caches, queue) == Step(r.caches, [])
  {
  }

  /** A repeated `ensureExchange` calls nothing, even with another type. */
  lemma EnsureExchangeIdempotent(c: Caches, exchange: string, kind: string, otherKind: string)
    ensures var r := EnsureExchange(c, exchange, kind); EnsureExchange(r.caches, exchange, otherKind) == Step(r.caches, [])
  {
  }

  /** A repeated identical `ensureBinding` adds no events. */
  lemma EnsureBindingIdempotent(c: Caches, queue: string, exchange: string, kind: string, routingKey: string)
    ensures var r := EnsureBinding(c, queue, exchange, kind, routingKey);
            EnsureBinding(r.caches, queue, exchange, kind, routingKey) == Step(r.caches, [])
  {
  }

  /** One recorded binding key, split back as `explode('|', $key)` does,
      names the exchange in field 0 and the pattern in field 2. */
  predicate BindingRoutes(key: string, exchange: string, routingKey: string) {
    var fields := Explode(key, '|');
    |fields| >= 3 && fields[0] == exchange && Routing.RoutingKeyMatches(fields[2], routingKey)
  }

  /** `checkExchangeBindings`: some recorded binding on this exchange has a
      pattern that matches the routing key. */
  predicate CheckExchangeBindings(bindings: set<string>, exchange: string, routingKey: string) {
    exists key | key in bindings :: BindingRoutes(key, exchange, routingKey)
  }

  /** A binding as `ensureBinding` received it. */
  datatype Binding = Binding(exchange: string, queue: string, pattern: string)

  predicate PipeFree(b: Binding) {
    '|' !in b.exchange && '|' !in b.queue && '|' !in b.pattern
  }

  function KeyOf(b: Binding): string {
    BindingKey(b.exchange, b.queue, b.pattern)
  }

  /** Splitting a key made from names without `|` gives the names back. */
  lemma BindingKeySplits(b: Binding)
    requires PipeFree(b)
    ensures Explode(KeyOf(b), '|') == [b.exchange, b.queue, b.pattern]
  {
    var parts := [b.exchange, b.queue, b.pattern];
    assert parts[1..] == [b.queue, b.pattern];
    assert parts[1..][1..] == [b.pattern];
    assert Implode(parts[1..][1..], '|') == b.pattern;
    assert Implode(parts[1..], '|') == b.queue + ['|'] + b.pattern;
    assert Implode(parts, '|') == b.exchange + ['|'] + (b.queue + ['|'] + b.pattern);
    assert Implode(parts, '|') == KeyOf(b);
    ExplodeImplode(parts, '|');
  }

  /** When no name contains `|`, the lookup finds exactly the bindings on
      the given exchange whose pattern matches the routing key. */
  lemma CheckExchangeBindingsExact(recorded: set<Binding>, exchange: string, routingKey: string)
    requires forall b :: b in recorded ==> PipeFree(b)
    ensures CheckExchangeBindings(set b | b in recorded :: KeyOf(b), exchange, routingKey)
        <==> exists b :: b in recorded && b.exchange == exchange && Routing.RoutingKeyMatches(b.pattern, routingKey)
  {
    var keys := set b | b in recorded :: KeyOf(b);
    if CheckExchangeBindings(keys, exchange, routingKey) {
      var key :| key in keys && BindingRoutes(key, exchange, routingKey);
      var b :| b in recorded && KeyOf(b) == key;
      BindingKeySplits(b);
    }
    if exists b :: b in recorded && b.exchange == exchange && Routing.RoutingKeyMatches(b.pattern, routingKey) {
      var b :| b in recorded && b.exchange == exchange && Routing.RoutingKeyMatches(b.pattern, routingKey);
      BindingKeySplits(b);
      assert KeyOf(b) in keys;
      assert BindingRoutes(KeyOf(b), exchange, routingKey);
    }
  }

  /** With a `|` inside a name the split shifts: a binding of queue `q` to
      exchange `a|b` with pattern `k` is read back as a binding on exchange
      `a` with pattern `q`, so `a` looks routable for key `q`. */
  lemma PipeInExchangeNameShiftsFields()
    ensures CheckExchangeBindings({BindingKey("a|b", "q", "k")}, "a", "q")
  {
    var key := BindingKey("a|b", "q", "k");
    var parts := ["a", "b", "q", "k"];
    assert key == Implode(parts, '|');
    ExplodeImplode(parts, '|');
    assert Routing.Supported("q");
    Routing.LiteralMatchesOnlyItself("q", "q");
    assert BindingRoutes(key, "a", "q");
  }
}
